=== FILE: README.md ===
# store — a Dafny model

This project models the core of the `store` library: an observable data store
for browser applications. The model covers two generations of it.

- **The observable store** (`src/store/store.ts`, `src/store/binding.ts`).
  - A `Store` holds its data as one immutable nested value: maps, lists and
    primitives of the persistent-collection library.
  - The data is addressed by selectors such as `"a.b[2].c"`. The store can
    `set`, `merge` and `remove` at a selector and read with `get`.
  - A *raise stack* saves copies of the data. `raise` saves one, `lower`
    returns to it, `settle` keeps the current data and drops the saved copy,
    and `settleAll` drops every saved copy.
  - After every change the store notifies its *bindings*. A binding watches a
    list of selectors and remembers the values they had. It runs its handler,
    once, with the current values, when one of them changed, when it is
    forced, or when it is resumed after a pause and something changed.
- **The token store** (`src/store.ts`, `src/vault.ts`, `src/namespace.ts`).
  - An older store keeps plain objects in a *vault*: a closure over one
    object that reads, writes and deletes by dotted key through the
    `namespace` helper.
  - Each of its three accesses can be guarded by a token.
  - It keeps a registry of named sub-stores, each also reachable as a `$name`
    property.

The modules follow the program's structure:

| module | file | models |
|---|---|---|
| `Text` | `text.dfy` | `split`/`join`, decimal spelling, the library's list-index rule |
| `Paths` | `paths.dfy` | `parsePath` |
| `Values` | `values.dfy` | the immutable values and `getIn`, `setIn`, `mergeIn`, `removeIn` |
| `Snapshots` | `snapshots.dfy` | the raise stack as a value, with `raise`, `lower`, `settle`, `settleAll` |
| `Watches` | `watches.dfy` | a binding's state and `fire` as pure functions |
| `Stores` | `store.dfy` | the classes `Store` and `Binding`, proved against `Values`, `Snapshots` and `Watches` |
| `Namespaces` | `namespace.dfy` | the `namespace` helper over a heap of mutable objects |
| `Vaults` | `vault.dfy` | `vault` |
| `TokenStores` | `token_store.dfy` | the token store class |

How the source maps onto Dafny:

- Code that changes objects in place becomes a class. This covers the two
  store classes, the binding, the vault and the objects the namespace helper
  walks.
- Its loops become methods with invariants. These are:
  - the binding's gather and scan loops;
  - the store's notification loop and its backward unbind loop;
  - the namespace helper's setter and getter/remover walks.
- The immutable values and the path parser are pure, so they become
  datatypes and functions.
- Handlers are not run. Each call of a handler is appended to a `CallLog`
  owned by the store, as a `Call(binding id, results)`.
- The module-level counters that produce store names and binding ids are
  `Counter` objects passed in.
- The UUID generator of the token store is a parameter.

Two behaviours of bindings follow the code where a reader might expect
otherwise:

- A forced `fire` of a binding without selectors does not run its handler,
  although the JSDoc of `initialFire` (`src/store/store.ts:68`) asks
  whether the handler should be called once right after the binding is
  made. The source checks `force` inside the loop over the selectors
  (`src/store/binding.ts:40-44`), so with no selectors that first call
  does not happen.
- A binding resumed with `paused = false` runs an unforced `fire`
  (`src/store/binding.ts:61-64`). It runs its handler only when some value
  differs from the one it remembers.

`TokenStores.TokenStore.Property` states that only a property named `$`
followed by a registered name gives a sub-store. The expectation at
`src/test/store.test.ts:8` reads the bare registered name `s[storeName]`,
which the model gives as absent.

## Model

| member | source | states |
|---|---|---|
| Text.Split | src/namespace.ts:22 | splitting at a one-character separator gives at least one piece and no piece contains the separator |
| Text.JoinSplit | src/store/store.ts:13 | joining the pieces of a split with the separator gives the original string back |
| Text.SplitJoin | src/store/store.ts:13 | splitting the join of separator-free pieces gives the pieces back |
| Text.DecimalString | src/store/store.ts:47 | the decimal spelling of a counter is non-empty, all digits and has no leading zero |
| Text.ParseIndex | src/store/store.ts:188 | a list key names an index only when it is the canonical decimal spelling of a number below 2^32-1 |
| Text.ParseIndexOfDecimal | src/store/store.ts:188 | every index below the bound is found again from its decimal spelling |
| Text.DecimalInjective | src/store/store.ts:47 | different counters have different decimal spellings |
| Text.DecimalOfCanonical | src/store/store.ts:188 | a canonical decimal key is the spelling of the index it denotes |
| Paths.NonEmpty | src/store/store.ts:14 | filtering keeps only non-empty pieces, each taken from the input, and keeps an input without empty pieces whole |
| Paths.ParsePath | src/store/store.ts:10-15 | every segment of a parsed selector is non-empty and free of dots |
| Paths.ParsePathEmpty | src/store/store.ts:10-15 | the empty selector addresses the root, as `get("")` on a new store shows |
| Paths.BracketIsDot | src/store/store.ts:12 | a bracketed decimal index `[n]` parses like the dotted segment `.n`, whatever text surrounds it |
| Paths.ReplaceAppend | src/store/store.ts:12 | the index replacement distributes over a concatenation whose right part cannot continue a match |
| Paths.ParseJoin | src/store/store.ts:10-15 | dot-joined segments without dots or brackets parse back into the same segments |
| Paths.ParseExample | src/store/store.ts:5-6 | the documented example: `"a.b[2]"` and `"a.b.2"` both parse to `["a", "b", "2"]` |
| Values.Holes | src/store/store.ts:151 | a write beyond the end of a list pads it with exactly the missing number of `undefined` holes |
| Values.Merge | src/store/store.ts:164 | a merge succeeds exactly into a list, or into a map from a map or an empty source; it keeps the container kind and fails only with a type error |
| Values.ApplyEdit | src/store/store.ts:149-180 | only a merge can fail at the end of a path, and then with a type error |
| Values.UpdateIn | src/store/store.ts:149-180 | a deep update fails only with a type error; below a present container it returns a container, and into unset data it creates maps |
| Values.Write | src/store/store.ts:149-180 | a successful write leaves a map or a list at the root |
| Values.Seed | src/store/store.ts:37-48 | a preset is refused exactly when it is a boolean, number or string; a map or list is kept as it is and no preset gives an empty map |
| Values.UpdateOkIff | src/store/store.ts:151 | a deep update succeeds exactly when no primitive is in the way and the edit at the end succeeds |
| Values.NotSetBelow | src/store/store.ts:151 | nothing is set and nothing blocks below an unset slot |
| Values.PutGet | src/store/store.ts:151 | writing a key of a container and reading it back gives the value written |
| Values.PutOther | src/store/store.ts:151 | writing one key of a container leaves every other key's slot as it was |
| Values.DeleteOther | src/store/store.ts:176 | removing a key of a map leaves every other key as it was |
| Values.HoleReadsUndefined | src/store/store.ts:188 | a read at any path below a hole or below nothing gives `undefined` |
| Values.UpdateSub | src/store/store.ts:149-180 | an update along `p + q` leaves at `p` what the update along `q` makes of the slot at `p` |
| Values.UpdateLeaf | src/store/store.ts:149-180 | after an update, the slot at the end of the path is what the edit makes of the slot that was there |
| Values.UpdateElsewhere | src/store/store.ts:149-180 | an update changes nothing that a diverging path reads, unless it removes a list element |
| Values.WriteOkIff | src/store/store.ts:149-180 | below the root, a write fails exactly when a primitive is in the way or the merge at the end fails; `set` and `remove` fail only for the first reason |
| Values.SetThenGet | src/store/store.ts:149-155 | `set` then `get` at the same selector gives the value set |
| Values.RemoveThenGet | src/store/store.ts:174-180 | `remove` then `get` at a map key gives `undefined` |
| Values.WriteStores | src/store/store.ts:151-152 | a successful write stores exactly what the deep update computed |
| Values.RemoveListElement | src/store/store.ts:176 | removing a list element leaves the list without it, the later elements moved down by one |
| Values.RemoveOneElement | src/store/store.ts:176 | removing index `i` of a list gives the list with element `i` cut out |
| Values.MergeThenGet | src/store/store.ts:162-168 | merging a map leaves the union at the selector, the merged entries winning; into unset data it leaves the source, or nothing if the source is empty |
| Values.MergeLeaf | src/store/store.ts:164 | the same for the slot itself: an unset slot takes a non-empty source, a map takes the union |
| Values.MergeIntoList | src/store/store.ts:162-168 | merging into a list appends the items of a list source, or the source itself as one item |
| Values.WriteElsewhere | src/store/store.ts:149-180 | a write leaves every selector that parts ways with it reading what it read before, unless it removes a list element |
| Values.WriteRoot | src/store/store.ts:149-180 | a write at the empty selector succeeds exactly when the edit leaves a map or list, which becomes the root; `remove("")` is refused; `set("", v)` of any map or list makes `v` the root |
| Snapshots.Raise | src/store/store.ts:97-102 | `raise` pushes the current data and keeps working on an equal copy |
| Snapshots.Lower | src/store/store.ts:107-115 | `lower` pops the last saved data and makes it current; with an empty stack nothing changes |
| Snapshots.Settle | src/store/store.ts:120-129 | `settle` drops the last saved copy and keeps the current data; with an empty stack nothing changes |
| Snapshots.SettleAll | src/store/store.ts:135-142 | `settleAll` empties the stack and keeps the current data |
| Snapshots.RunAppend | src/store/store.ts:97-142 | running two sequences of operations one after the other is running their concatenation |
| Snapshots.InsideKeepsBase | src/store/store.ts:97-142 | operations that never go below a level leave the copies saved below it untouched and end at the height their raises and lowers add up to |
| Snapshots.RaiseRunLower | test/store/store.test.ts:111-121 | `raise`, any balanced work, then `lower` restores the data and the stack exactly |
| Snapshots.RaiseRunSettle | test/store/store.test.ts:122-132 | `raise`, any balanced work, then `settle` keeps the work and restores the stack |
| Watches.Current | src/store/binding.ts:46-49 | the handler's results are the values of the selectors, in order, one per selector |
| Watches.Baseline | src/store/binding.ts:23-29 | the remembered values are keyed by exactly the selectors, each with its current value |
| Watches.NewWatch | src/store/binding.ts:12-22 | a new binding is not paused and sees no change against the data it was made on |
| Watches.Fire | src/store/binding.ts:35-55 | a fire runs the handler at most once and changes neither id, selectors nor pause state |
| Watches.FireRunsIff | src/store/binding.ts:35-55 | the handler runs exactly when the binding is not paused, has a selector and is forced or sees a change; it then gets the current values and the binding remembers them, and otherwise nothing changes |
| Watches.Notices | src/store/store.ts:58-62 | one notification runs each binding's handler at most once |
| Watches.FireRemembers | src/store/binding.ts:45 | after a fire of a binding that is not paused, it sees no change against the same data |
| Watches.FireSettles | src/store/binding.ts:35-55 | after a fire, an unforced fire against the same data does not run the handler again |
| Watches.InitialFire | src/store/store.ts:75-79 | a new binding's forced initial fire runs the handler exactly when it has a selector; an unforced one never does |
| Watches.PausedMisses | src/store/binding.ts:36-39 | a paused binding fired against any series of data changes nothing and runs no handler |
| Watches.PausedCatchUp | src/store/binding.ts:61-64 | a paused binding misses every change; resumed, it runs its handler once with the latest values exactly when they differ from those it remembers |
| Watches.UnrelatedWriteIsSilent | src/store/binding.ts:40-44 | a write whose selector parts ways with every selector of a binding does not run its handler |
| Stores.Counter.constructor | src/store/store.ts:17 | a counter starts at zero |
| Stores.Counter.Take | src/store/binding.ts:17 | the post-increment returns the counter and advances it by one |
| Stores.CallLog.constructor | src/store/binding.ts:10 | no handler has run yet |
| Stores.CallLog.Record | src/store/binding.ts:50 | a handler run is appended to the log |
| Stores.AutoNamesDistinct | src/store/store.ts:47 | automatic store names `Store_<n>` are equal exactly when their counters are |
| Stores.Without | src/store/store.ts:83-89 | the list without a binding keeps every other element, holds no copy of it, and is unchanged when it was absent |
| Stores.WithoutKeeps | src/store/store.ts:83-89 | every element other than the removed one survives |
| Stores.WithoutDistinct | src/store/store.ts:83-89 | removing a binding keeps the list free of duplicates |
| Stores.SpliceStep | src/store/store.ts:84-86 | one step of the backward splice loop extends the filtered suffix by one position |
| Stores.LogStep | src/store/store.ts:59-60 | one more binding's fire extends the log of a notification by its handler run |
| Stores.Binding.constructor | src/store/binding.ts:12-22 | a binding takes the next id and remembers the current value of each selector |
| Stores.Binding.GatherOldValues | src/store/binding.ts:23-29 | the remembered values are updated with the current value of every selector |
| Stores.Binding.Results | src/store/binding.ts:46-49 | the results are the current values of the selectors, in order |
| Stores.Binding.Run | src/store/binding.ts:45-50 | the binding remembers the current values and the handler runs once with them |
| Stores.Binding.Changed | src/store/binding.ts:40-44 | the scan reports a change exactly when there is a selector and the binding is forced or some selector's value differs from the remembered one |
| Stores.Binding.Fire | src/store/binding.ts:35-55 | the new state and the handler runs are those of `Watches.Fire` |
| Stores.Binding.SetPaused | src/store/binding.ts:61-64 | setting `paused` fires the binding, unforced, with the new pause state |
| Stores.Binding.Unbind | src/store/binding.ts:70-72 | the binding is removed from its store's list |
| Stores.Store.constructor | src/store/store.ts:33-50 | a store holds its preset, or an empty map without one, and is named after the option, or else after the counter, which only then advances |
| Stores.Store.Create | src/store/store.ts:37-44 | a primitive preset is refused before the counter moves; otherwise the store is made |
| Stores.Store.FireBindings | src/store/store.ts:58-62 | every binding has fired, unforced, against the current data, and the handler runs are logged in binding order |
| Stores.Store.FireNext | src/store/store.ts:59-60 | the binding at one position fires and the bindings before and after keep their states |
| Stores.Store.Bind | src/store/store.ts:70-81 | a new binding is appended and, when asked, fired at once, forced; existing bindings keep their states |
| Stores.Store.Unbind | src/store/store.ts:83-89 | every occurrence of the binding is removed, the others kept in order |
| Stores.Store.Raise | src/store/store.ts:97-102 | the data and stack change as `Snapshots.Raise` says |
| Stores.Store.Lower | src/store/store.ts:107-115 | the data and stack change as `Snapshots.Lower` says, and the bindings are notified only if something was saved; otherwise the data, the log and every binding's state stay as they were |
| Stores.Store.Settle | src/store/store.ts:120-129 | the data and stack change as `Snapshots.Settle` says |
| Stores.Store.SettleAll | src/store/store.ts:135-142 | the data and stack change as `Snapshots.SettleAll` says |
| Stores.Store.Apply | src/store/store.ts:149-180 | a successful write replaces the data and notifies the bindings; a refused write leaves the data, the log and every binding's state as they were |
| Stores.Store.Set | src/store/store.ts:149-155 | the data becomes the result of `set` at the selector and the bindings are notified; a refused write changes no data, log or binding state |
| Stores.Store.Merge | src/store/store.ts:162-168 | the data becomes the result of `merge` at the selector and the bindings are notified; a refused write changes no data, log or binding state |
| Stores.Store.Remove | src/store/store.ts:174-180 | the data becomes the result of `remove` at the selector and the bindings are notified; a refused write changes no data, log or binding state |
| Stores.Store.GetImmutable | src/store/store.ts:187-189 | the value read is the one under the selector |
| Stores.Store.Get | src/store/store.ts:196-204 | the plain value read is the one under the selector |
| Stores.Store.Raised | src/store/store.ts:221-223 | the number of saved copies |
| Stores.Store.SetDebug | src/store/store.ts:217-219 | the debug flag takes the value given |
| Namespaces.Record.constructor | src/namespace.ts:32 | a new object has no own properties |
| Namespaces.Locate | src/namespace.ts:39-55 | where a walk stops, it stops at an object holding the last segment, at a position whose segment equals the last one |
| Namespaces.LocateAlong | src/namespace.ts:42-53 | a walk along linked objects stops at the first segment equal to the last one, if that object holds it |
| Namespaces.Descend | src/namespace.ts:28-37 | one setter step leaves an object at the segment, or the value at the last segment, and changes no other property; an object already at a segment that is not the last is kept, and anything else there is replaced by a new empty object |
| Namespaces.FrameStep | src/namespace.ts:28-36 | one setter step keeps an object within its setter frame: other keys untouched, objects on the way kept, replaced properties holding new objects |
| Namespaces.SetterStep | src/namespace.ts:27-37 | one round of the setter loop changes only the object it stands on, as `Descend` says, and adds only new empty objects |
| Namespaces.WalkStep | src/namespace.ts:27-37 | one round of the setter loop keeps the setter's invariant: the trail stays linked, earlier occurrences of the last segment keep the value, and every object stays within its setter frame |
| Namespaces.SetterLoop | src/namespace.ts:26-38 | the setter loop runs through every segment unless it steps into a primitive, keeping the setter's invariant |
| Namespaces.Assign | src/namespace.ts:24-38 | the setter changes only objects on its trail and only properties named in the key; an object held under a segment other than the last is kept, a missing or primitive one is replaced by a new empty object; on objects without an array's own `length` (not modelled) it fails only for a key whose last segment repeats, and with a non-repeating last segment a read then gives the value |
| Namespaces.Walk | src/namespace.ts:39-56 | the getter returns what a read gives; the remover deletes the last segment where the walk stops, fails if segments remain, and leaves the key reading `undefined` |
| Namespaces.Namespace | src/namespace.ts:15-57 | no object gives `undefined`; otherwise the mode decides between the getter, the setter (objects off its trail unchanged, those on it within the setter's frame) and the remover (a missing key changes nothing, otherwise only the holder loses the last segment), as above |
| Vaults.Vault.constructor | src/vault.ts:10-11 | the vault works on the preset object itself, or on a new empty object under which every key reads `undefined` |
| Vaults.Vault.Set | src/vault.ts:14-16 | a key whose last segment does not repeat reads back the value set (an array's own `length` is not modelled); the objects the walk passed through form a trail linked by the key's segments from the vault's object; every object off the trail keeps its properties, and those on it change only within the setter's frame (only properties named in the key, objects on the way kept) |
| Vaults.Vault.Get | src/vault.ts:17-19 | the value read is what the namespace getter returns |
| Vaults.Vault.Remove | src/vault.ts:20-22 | the key reads `undefined` afterwards; a missing key changes nothing; otherwise only the holding object loses the last segment, and the call fails exactly when segments remain after it |
| TokenStores.Guard | src/store.ts:67-70 | an unprotected store guards no access |
| TokenStores.ToFailure | src/store.ts:74 | a vault call that fails makes the store call fail |
| TokenStores.TokenStore.constructor | src/store.ts:21-25 | the name is the given one or else the generated one, the options default to no protection, and the vault starts empty |
| TokenStores.TokenStore.SetName | src/store.ts:31-33 | assigning the name changes nothing |
| TokenStores.TokenStore.CreateSubStore | src/store.ts:35-60 | a registered name is refused; otherwise a new store is registered under the name and reachable as `$name` |
| TokenStores.TokenStore.SubStore | src/store.ts:62-64 | a sub-store is found exactly for a registered name, and then carries that name |
| TokenStores.TokenStore.Property | src/store.ts:43-57 | a property gives a sub-store exactly when it is `$` followed by a registered name |
| TokenStores.TokenStore.Set | src/store.ts:66-75 | a write guarded by another token is refused and changes no object, the value's own included; otherwise a key with a non-repeating last segment reads back the value (an array's own `length` is not modelled), a failure is the walk's type error, every object off the walk's trail keeps its properties and those on it change only within the setter's frame |
| TokenStores.TokenStore.Get | src/store.ts:77-86 | a read guarded by another token is refused; otherwise it gives what the vault holds under the key |
| TokenStores.TokenStore.Remove | src/store.ts:88-97 | a delete guarded by another token is refused and changes nothing; otherwise the key reads `undefined` afterwards, a missing key changes nothing, only the holding object loses the last segment, and the call fails exactly when segments remain after it |

## Left out

- Debug output (`#debug`, `console.log`) is not modelled. The debug flag is kept as a field.
- Handlers are not executed. A handler that throws, or that writes to the store while it is being notified, is not modelled. Each run is recorded in a log instead.
- Numbers are mathematical integers. Floating-point values, `NaN` and the library's treatment of fractional or negative list keys are not modelled.
- Structural sharing and reference identity of the immutable values are not modelled. Values are compared by contents, which is the library's `is` for the data that `set` and the preset convert with `fromJS`. `fromJS`/`toJS` are modelled as the identity, and the copy `raise` makes is the same value.
- Values.Merge: `merge` hands its source to `mergeIn` without `fromJS` (src/store/store.ts:164), so nested plain objects and arrays of the source are stored as they are; the model stores them as immutable values. Three consequences are not captured: such nested values are compared by reference, so merging the same plain value again notifies the bindings again; a later `merge` into a nested plain array with a source that is not iterable is a `TypeError`, where the model appends the source; and `get` returns the stored plain object itself, which aliases the store's data.
- Stores.Store.Merge: has the same three gaps as `Values.Merge`, because it writes the result of `Values.Merge` at the selector.
- `merge` is the library's shallow `merge` at the selector, with one source. Deep merging of nested maps and a source given as a list of key/value pairs are not modelled.
- Values.Write: a write that would leave a primitive or nothing at the root (`set("", 5)`, `remove("")`) is refused with an error. In the source it replaces the root, and later store calls then fail.
- Sets, ordered maps and other collection types of the library are not modelled.
- The UUID generator is a parameter: `src/uuid.ts` is not part of this model.
- The token store's `bind` and `plug` are empty stubs and are not modelled.
- Property names inherited from `Object.prototype` (`__proto__`, `constructor`, …) are not modelled, in the sub-store registry, in the namespace helper or in a binding's remembered values, which the source keeps in a plain object keyed by selector (src/store/binding.ts:9). The model's `map` treats a selector such as `"__proto__"` like any other.
- Own properties of primitive strings (indices, `length`) and `null` property values in the namespace helper are not modelled: a primitive has no own properties there.
- An array's own `length` property is not modelled: an array is a `Record` whose properties are its indices. In the source the getter returns an array's `length`, a write through it throws a `RangeError` (the setter first assigns `{}` to it) and a delete of it throws a type error. In the model `Namespaces.Walk` reads it as absent, and `Namespaces.Assign`, `Vaults.Vault.Set` and `TokenStores.TokenStore.Set` create it as an ordinary property.
- The namespace helper is modelled as running in strict mode, where creating a property on a primitive throws a type error. The source's thrown errors are `Err`/`Fail` results.
- Symbols used as tokens are modelled as numbers compared by equality.
- The `$name` property's setter, which ignores assignments, is not modelled.
- Snapshots.Run: a write appears in an operation sequence as the data it produced (`PutOp`), so lemmas over sequences hold for every write, successful or not.
- Namespaces.Assign: for a key whose last segment also occurs earlier, the contract says only how each object may change (`SetterFrame`), not what a read gives afterwards.
- Vaults.Vault.Set: for a key whose last segment also occurs earlier, the contract says nothing about what a read gives afterwards.
- TokenStores.TokenStore.Set: for a key whose last segment also occurs earlier, the contract says nothing about what a read gives afterwards.
- Values.SetThenGet: stated for paths whose lists are all addressed by an index. A non-index key on a list is ignored by `set`, so a read gives `undefined` there.

=== FILE: namespace.dfy ===
/** The namespace helper: reads, writes and deletes a property of a plain
    object addressed by a dotted key such as `"de.example.app"`, walking
    the object graph in place and creating intermediate objects on writes.

    A plain object is a `Record` whose own properties the helper updates in
    place. An array is modelled as such an object whose own properties are
    its indices only: its own `length` property is not modelled. The
    last segment of a key is recognised by its text, so in a key whose last
    segment also occurs earlier (`"a.b.a"`) the walk stops at the first
    occurrence. */
module Namespaces {
  import opened Wrappers
  import opened Text

  datatype Error = TypeError

  /** A property value: a primitive or a reference to an object. */
  datatype Prop = Str(s: string) | Num(n: int) | Bool(b: bool) | Obj(rec: Record)

  class Record {
    var props: map<string, Prop>

    constructor ()
      ensures props == map[]
    {
      props := map[];
    }
  }

  /** How the helper is called: with two arguments it reads, with a value
      it writes, and with an explicit `undefined` value it deletes. */
  datatype Mode = Getter | Setter(value: Prop) | Remover

  /** `p` refers to no object outside `repr`. */
  predicate Within(p: Prop, repr: set<Record>) {
    p.Obj? ==> p.rec in repr
  }

  /** Every object referred to from `repr` is in `repr`. */
  ghost predicate Closed(repr: set<Record>)
    reads repr
  {
    forall r, k :: r in repr && k in r.props ==> Within(r.props[k], repr)
  }

  /** The last segment occurs nowhere else in the key. */
  predicate LastUnique(parts: seq<string>) {
    |parts| >= 1 && forall k :: 0 <= k < |parts| - 1 ==> parts[k] != parts[|parts| - 1]
  }

  /** Where a read or a delete stops: the object holding the first segment,
      from position `i` on, that equals the last segment, and that position;
      `None` when an own property is missing on the way or the walk meets a
      primitive. */
  ghost function Locate(repr: set<Record>, current: Prop, parts: seq<string>, i: nat): (r: Option<(Record, nat)>)
    requires Closed(repr) && Within(current, repr) && |parts| >= 1
    reads repr
    ensures r.Some? ==> r.value.0 in repr && i <= r.value.1 < |parts|
                        && parts[r.value.1] == parts[|parts| - 1] && parts[|parts| - 1] in r.value.0.props
    decreases |parts| - i
  {
    if i >= |parts| then None
    else match current
      case Obj(rec) =>
        if parts[i] !in rec.props then None
        else if parts[i] == parts[|parts| - 1] then Some((rec, i))
        else Locate(repr, rec.props[parts[i]], parts, i + 1)
      case _ => None
  }

  /** What a read of the key returns; `None` stands for `undefined`. */
  ghost function Lookup(repr: set<Record>, target: Record, parts: seq<string>): Option<Prop>
    requires Closed(repr) && target in repr && |parts| >= 1
    reads repr
  {
    match Locate(repr, Obj(target), parts, 0)
    case Some((holder, _)) => Some(holder.props[parts[|parts| - 1]])
    case None => None
  }

  /** `trail[j]` holds the object-valued property `parts[j]` leading to
      `trail[j + 1]`, for every `j` from `k` up to `n`. */
  ghost predicate Linked(trail: seq<Record>, parts: seq<string>, k: nat, n: nat)
    reads trail
  {
    k <= n < |trail| && n <= |parts|
    && forall j :: k <= j < n ==> parts[j] in trail[j].props && trail[j].props[parts[j]] == Obj(trail[j + 1])
  }

  /** A trail stays linked when it grows by the object its end links to. */
  lemma LinkedGrow(trail: seq<Record>, parts: seq<string>, n: nat, next: Record)
    requires Linked(trail, parts, 0, n) && |trail| == n + 1 && n < |parts|
    requires parts[n] in trail[n].props && trail[n].props[parts[n]] == Obj(next)
    ensures Linked(trail + [next], parts, 0, n + 1)
  {
    var t := trail + [next];
    forall j | 0 <= j < n + 1
      ensures parts[j] in t[j].props && t[j].props[parts[j]] == Obj(t[j + 1])
    {
      assert t[j] == trail[j];
    }
  }

  /** A walk along linked objects whose segments differ from the last one
      until position `n` stops at `trail[n]`, if it holds the last segment. */
  lemma {:induction false} LocateAlong(repr: set<Record>, trail: seq<Record>, parts: seq<string>, k: nat, n: nat)
    requires Closed(repr) && |parts| >= 1 && Linked(trail, parts, k, n) && n < |parts|
    requires forall j :: 0 <= j < |trail| ==> trail[j] in repr
    requires forall j :: k <= j < n ==> parts[j] != parts[|parts| - 1]
    requires parts[n] == parts[|parts| - 1]
    ensures Locate(repr, Obj(trail[k]), parts, k)
         == if parts[n] in trail[n].props then Some((trail[n], n)) else None
    decreases n - k
  {
    if k < n {
      LocateAlong(repr, trail, parts, k + 1, n);
    }
  }

  /** `now` and `was` agree on every property not named in `parts`. */
  ghost predicate KeysKept(now: map<string, Prop>, was: map<string, Prop>, parts: seq<string>) {
    forall k :: k !in parts ==> (k in now <==> k in was) && (k in now ==> now[k] == was[k])
  }

  /** What the setter may do to the properties `was` of one object, ending
      with `now`: only properties named in the key change; an object held
      under any segment but the last is kept; and a property under such a
      segment that changed now holds a new object, not one of `repr`. */
  ghost predicate SetterFrame(now: map<string, Prop>, was: map<string, Prop>, parts: seq<string>, repr: set<Record>)
    requires |parts| >= 1
  {
    var last := parts[|parts| - 1];
    KeysKept(now, was, parts)
    && (forall k :: k in was && was[k].Obj? && k != last ==> k in now && now[k] == was[k])
    && (forall k :: k in now && k != last && !(k in was && now[k] == was[k]) ==> now[k].Obj? && now[k].rec !in repr)
  }

  /** One setter step on an object keeps its setter frame. */
  lemma FrameStep(now: map<string, Prop>, mid: map<string, Prop>, was: map<string, Prop>, part: string,
                  parts: seq<string>, repr: set<Record>)
    requires |parts| >= 1 && part in parts && SetterFrame(mid, was, parts, repr)
    requires KeysKept(now, mid, [part]) && part in now
    requires part != parts[|parts| - 1] && part in mid && mid[part].Obj? ==> now == mid
    requires part != parts[|parts| - 1] && !(part in mid && mid[part].Obj?) ==> now[part].Obj? && now[part].rec !in repr
    ensures SetterFrame(now, was, parts, repr)
  {
  }

  /** One setter step keeps a property `k` holding `v`, when `v` is what the
      step stores (at the last segment) or an object (at any other). */
  lemma LinkStep(now: map<string, Prop>, mid: map<string, Prop>, part: string, isLast: bool, value: Prop,
                 k: string, v: Prop)
    requires KeysKept(now, mid, [part]) && part in now && (isLast ==> now[part] == value)
    requires !isLast && part in mid && mid[part].Obj? ==> now == mid
    requires k in mid && mid[k] == v
    requires k == part ==> if isLast then v == value else v.Obj?
    ensures k in now && now[k] == v
  {
  }

  /** One step of the setter on the object `rec`: make sure `part` holds an
      object (a new empty one if it held nothing or a primitive), store the
      value there instead if `part` is the last segment, and step into it. */
  method Descend(rec: Record, part: string, isLast: bool, value: Prop, ghost repr: set<Record>)
      returns (next: Prop, ghost repr': set<Record>)
    requires rec in repr && Closed(repr) && Within(value, repr)
    modifies rec
    ensures repr <= repr' && fresh(repr' - repr) && Closed(repr') && Within(next, repr')
    ensures forall r :: r in repr' && r !in repr ==> r.props == map[]
    ensures KeysKept(rec.props, old(rec.props), [part])
    ensures part in rec.props && next == rec.props[part]
    ensures isLast ==> next == value
    ensures !isLast ==> next.Obj?
    ensures !isLast && part in old(rec.props) && old(rec.props[part]).Obj? ==> rec.props == old(rec.props)
    ensures !isLast && !(part in old(rec.props) && old(rec.props[part]).Obj?) ==> fresh(next.rec) && next.rec.props == map[]
  {
    repr' := repr;
    if part !in rec.props || !rec.props[part].Obj? {
      var child := new Record();
      rec.props := rec.props[part := Obj(child)];
      repr' := repr' + {child};
    }
    if isLast {
      rec.props := rec.props[part := value];
    }
    next := rec.props[part];
    forall r, k | r in repr' && k in r.props
      ensures Within(r.props[k], repr')
    {
      if r != rec || k != part {
        assert r in repr ==> Within(old(r.props[k]), repr);
      }
    }
  }

  /** `now` records the properties of every object of `repr`, and of no
      other object. */
  ghost predicate Mirrors(now: map<Record, map<string, Prop>>, repr: set<Record>)
    reads repr
  {
    now.Keys == repr && forall r :: r in repr ==> r.props == now[r]
  }

  /** `Linked`, read from the recorded properties `now`. */
  ghost predicate LinkedIn(now: map<Record, map<string, Prop>>, trail: seq<Record>, parts: seq<string>, k: nat, n: nat) {
    k <= n < |trail| && n <= |parts|
    && forall j :: k <= j < n ==>
         trail[j] in now && parts[j] in now[trail[j]] && now[trail[j]][parts[j]] == Obj(trail[j + 1])
  }

  /** Every object of `repr`, whose properties were `before` and are now
      `now`, has changed as `SetterFrame` allows and only if it is on the
      `trail`; every new object has grown from nothing the same way. */
  ghost predicate Framed(repr: set<Record>, before: map<Record, map<string, Prop>>,
                         now: map<Record, map<string, Prop>>, trail: seq<Record>, parts: seq<string>)
    requires |parts| >= 1
  {
    repr <= now.Keys && before.Keys == repr
    && (forall r :: r in repr && r !in trail ==> now[r] == before[r])
    && (forall r :: r in repr ==> SetterFrame(now[r], before[r], parts, repr))
    && (forall r :: r in now && r !in repr ==> SetterFrame(now[r], map[], parts, repr))
  }

  /** The objects the setter stepped through from `target` in its first
      `i` steps are `trail`, each linked to the next by its segment, the
      walk is at `current`, and a segment equal to the last one holds the
      value. */
  ghost predicate Trailed(target: Record, parts: seq<string>, value: Prop,
                          now: map<Record, map<string, Prop>>, trail: seq<Record>, current: Prop, i: nat)
    requires |parts| >= 1
  {
    var last := parts[|parts| - 1];
    i <= |parts| && |trail| == i
    && Within(current, now.Keys) && Within(value, now.Keys)
    && (forall j :: 0 <= j < i ==> trail[j] in now)
    && (i == 0 ==> current == Obj(target))
    && (i > 0 ==> trail[0] == target && LinkedIn(now, trail, parts, 0, i - 1)
                  && parts[i - 1] in now[trail[i - 1]] && now[trail[i - 1]][parts[i - 1]] == current)
    && (i > 0 && parts[i - 1] != last ==> current.Obj?)
    && (forall j :: 0 <= j < i && parts[j] == last ==> last in now[trail[j]] && now[trail[j]][last] == value)
  }

  /** The state of the setter after `i` steps, read from the recorded
      properties `now`. */
  ghost predicate Walked(target: Record, parts: seq<string>, value: Prop, repr: set<Record>,
                         before: map<Record, map<string, Prop>>, now: map<Record, map<string, Prop>>,
                         trail: seq<Record>, current: Prop, i: nat)
    requires |parts| >= 1
  {
    Framed(repr, before, now, trail, parts) && Trailed(target, parts, value, now, trail, current, i)
  }

  /** A setter step from `rec` into the property `part` took the recorded
      properties from `now` to `now'` and arrived at `next`: only `rec`
      changed, as `Descend` promises, and the other new objects are empty. */
  ghost predicate Stepped(now: map<Record, map<string, Prop>>, now': map<Record, map<string, Prop>>,
                          rec: Record, part: string, isLast: bool, value: Prop, next: Prop)
  {
    rec in now && now.Keys <= now'.Keys && Within(next, now'.Keys)
    && (forall r :: r in now && r != rec ==> now'[r] == now[r])
    && (forall r :: r in now' && r !in now ==> now'[r] == map[])
    && KeysKept(now'[rec], now[rec], [part]) && part in now'[rec] && next == now'[rec][part]
    && (isLast ==> next == value)
    && (!isLast ==> next.Obj?)
    && (!isLast && part in now[rec] && now[rec][part].Obj? ==> now'[rec] == now[rec])
    && (!isLast && !(part in now[rec] && now[rec][part].Obj?) ==> next.rec !in now)
  }

  /** A step extends the trail by the object it stepped from, keeps the
      links along it and the value stored under every earlier occurrence of
      the last segment. */
  lemma TrailStep(target: Record, parts: seq<string>, value: Prop, now: map<Record, map<string, Prop>>,
                  now': map<Record, map<string, Prop>>, trail: seq<Record>, current: Prop, i: nat, next: Prop)
    requires |parts| >= 1 && i < |parts| && current.Obj?
    requires Trailed(target, parts, value, now, trail, current, i)
    requires Stepped(now, now', current.rec, parts[i], parts[i] == parts[|parts| - 1], value, next)
    ensures Trailed(target, parts, value, now', trail + [current.rec], next, i + 1)
  {
    var last := parts[|parts| - 1];
    var rec := current.rec;
    var trail' := trail + [rec];
    forall j | 0 <= j < i
      ensures trail'[j] in now' && parts[j] in now'[trail'[j]] && now'[trail'[j]][parts[j]] == Obj(trail'[j + 1])
      ensures parts[j] == last ==> now'[trail'[j]][last] == value
    {
      if trail[j] == rec {
        LinkStep(now'[rec], now[rec], parts[i], parts[i] == last, value, parts[j], Obj(trail'[j + 1]));
      }
    }
  }

  /** A step keeps the setter frame of every object, old and new. */
  lemma FrameKept(repr: set<Record>, before: map<Record, map<string, Prop>>, now: map<Record, map<string, Prop>>,
                  now': map<Record, map<string, Prop>>, trail: seq<Record>, parts: seq<string>, value: Prop,
                  rec: Record, next: Prop, i: nat)
    requires |parts| >= 1 && i < |parts|
    requires Framed(repr, before, now, trail, parts)
    requires Stepped(now, now', rec, parts[i], parts[i] == parts[|parts| - 1], value, next)
    ensures Framed(repr, before, now', trail + [rec], parts)
  {
    forall r | r in repr
      ensures SetterFrame(now'[r], before[r], parts, repr)
    {
      if r == rec {
        FrameStep(now'[rec], now[rec], before[r], parts[i], parts, repr);
      }
    }
    forall r | r in now' && r !in repr
      ensures SetterFrame(now'[r], map[], parts, repr)
    {
      if r == rec {
        FrameStep(now'[rec], now[rec], map[], parts[i], parts, repr);
      }
    }
  }

  /** One round of the setter, on recorded properties: after a step as
      `Stepped` describes, the setter state carries over to the next
      segment. */
  lemma WalkStep(target: Record, parts: seq<string>, value: Prop, repr: set<Record>,
                 before: map<Record, map<string, Prop>>, now: map<Record, map<string, Prop>>,
                 trail: seq<Record>, current: Prop, i: nat, now': map<Record, map<string, Prop>>, next: Prop)
    requires |parts| >= 1 && i < |parts| && current.Obj?
    requires Walked(target, parts, value, repr, before, now, trail, current, i)
    requires Stepped(now, now', current.rec, parts[i], parts[i] == parts[|parts| - 1], value, next)
    ensures Walked(target, parts, value, repr, before, now', trail + [current.rec], next, i + 1)
  {
    TrailStep(target, parts, value, now, now', trail, current, i, next);
    FrameKept(repr, before, now, now', trail, parts, value, current.rec, next, i);
  }

  /** One round of the setter loop: step from the object `current` into the
      property `part`, keeping the record `now` of every object's
      properties up to date. */
  method SetterStep(current: Prop, part: string, isLast: bool, value: Prop,
                    ghost now: map<Record, map<string, Prop>>, ghost repr: set<Record>)
      returns (next: Prop, ghost now': map<Record, map<string, Prop>>, ghost repr': set<Record>)
    requires current.Obj? && current.rec in repr && Within(value, repr)
    requires Mirrors(now, repr) && Closed(repr)
    modifies current.rec
    ensures fresh(repr' - repr) && Mirrors(now', repr') && Closed(repr')
    ensures Stepped(now, now', current.rec, part, isLast, value, next)
  {
    var rec := current.rec;
    next, repr' := Descend(rec, part, isLast, value, repr);
    now' := now[rec := rec.props] + map r | r in repr' - repr :: map[];
    forall r | r in repr'
      ensures r.props == now'[r]
    {
      if r !in repr' - repr && r != rec {
        assert r.props == old(r.props);
      }
    }
  }

  /** One round of the setter loop, with its setter state: step from
      `current` into `parts[i]`. */
  method Advance(target: Record, parts: seq<string>, value: Prop, ghost repr: set<Record>,
                 ghost before: map<Record, map<string, Prop>>, ghost now: map<Record, map<string, Prop>>,
                 ghost repr': set<Record>, ghost trail: seq<Record>, current: Prop, i: nat)
      returns (next: Prop, ghost now': map<Record, map<string, Prop>>, ghost repr'': set<Record>)
    requires |parts| >= 1 && i < |parts| && current.Obj?
    requires Mirrors(now, repr') && Closed(repr')
    requires Walked(target, parts, value, repr, before, now, trail, current, i)
    modifies current.rec
    ensures fresh(repr'' - repr') && Mirrors(now', repr'') && Closed(repr'')
    ensures Walked(target, parts, value, repr, before, now', trail + [current.rec], next, i + 1)
  {
    next, now', repr'' := SetterStep(current, parts[i], parts[i] == parts[|parts| - 1], value, now, repr');
    WalkStep(target, parts, value, repr, before, now, trail, current, i, now', next);
  }

  /** What the recorded setter state says about the objects themselves. */
  lemma Settled(target: Record, parts: seq<string>, value: Prop, repr: set<Record>,
                before: map<Record, map<string, Prop>>, now: map<Record, map<string, Prop>>,
                repr': set<Record>, trail: seq<Record>, current: Prop, i: nat)
    requires |parts| >= 1 && Mirrors(now, repr')
    requires Walked(target, parts, value, repr, before, now, trail, current, i)
    ensures forall j :: 0 <= j < i ==> trail[j] in repr'
    ensures forall r :: r in repr && r !in trail ==> r.props == before[r]
    ensures forall r :: r in repr ==> SetterFrame(r.props, before[r], parts, repr)
    ensures forall r :: r in repr' && r !in repr ==> SetterFrame(r.props, map[], parts, repr)
    ensures i > 0 ==> Linked(trail, parts, 0, i - 1)
    ensures forall j :: 0 <= j < i && parts[j] == parts[|parts| - 1] ==>
      parts[j] in trail[j].props && trail[j].props[parts[j]] == value
  {
  }

  /** Before the first step nothing has changed. */
  lemma WalkStart(target: Record, parts: seq<string>, value: Prop, repr: set<Record>,
                  before: map<Record, map<string, Prop>>)
    requires |parts| >= 1 && before.Keys == repr && target in repr && Within(value, repr)
    ensures Walked(target, parts, value, repr, before, before, [], Obj(target), 0)
  {
  }

  /** The loop of the setter: step through the segments while the walk is
      at an object; `done` tells whether it got through all of them.
      `before` records the properties of every object of `repr` at the
      start. */
  method SetterLoop(target: Record, parts: seq<string>, value: Prop, ghost repr: set<Record>,
                    ghost before: map<Record, map<string, Prop>>)
      returns (done: bool, ghost now: map<Record, map<string, Prop>>,
               ghost repr': set<Record>, ghost trail: seq<Record>, ghost current: Prop, ghost i: nat)
    requires |parts| >= 1 && Closed(repr) && target in repr && Within(value, repr) && Mirrors(before, repr)
    modifies repr
    ensures fresh(repr' - repr) && Mirrors(now, repr') && Closed(repr')
    ensures Walked(target, parts, value, repr, before, now, trail, current, i)
    ensures done == (i == |parts|) && (!done ==> i < |parts| && !current.Obj?)
  {
    now := before;
    repr' := repr;
    WalkStart(target, parts, value, repr, before);
    var at := Obj(target);
    trail := [];
    var k := 0;
    while k < |parts| && at.Obj?
      invariant fresh(repr' - repr)
      invariant Mirrors(now, repr') && Closed(repr')
      invariant Walked(target, parts, value, repr, before, now, trail, at, k)
    {
      ghost var rec := at.rec;
      at, now, repr' := Advance(target, parts, value, repr, before, now, repr', trail, at, k);
      trail := trail + [rec];
      k := k + 1;
    }
    done, current, i := k == |parts|, at, k;
  }

  /** The setter: for each segment, replace a missing or non-object property
      by a new empty object; when the segment equals the last segment, store
      the value there; step into the property. Stepping from a primitive
      into a property is a type error. The objects the walk stepped through
      are `trail`; no other object changes, and each changes as
      `SetterFrame` allows. With a last segment that occurs only once, a
      read of the key then returns the value. */
  method Assign(target: Record, parts: seq<string>, value: Prop, ghost repr: set<Record>)
      returns (out: Outcome<Error>, ghost repr': set<Record>, ghost trail: seq<Record>)
    requires |parts| >= 1 && Closed(repr) && target in repr && Within(value, repr)
    modifies repr
    ensures repr <= repr' && fresh(repr' - repr) && Closed(repr')
    ensures 1 <= |trail| <= |parts| && trail[0] == target && Linked(trail, parts, 0, |trail| - 1)
    ensures forall j :: 0 <= j < |trail| ==> trail[j] in repr'
    ensures forall r :: r in repr && r !in trail ==> r.props == old(r.props)
    ensures forall r :: r in repr ==> SetterFrame(r.props, old(r.props), parts, repr)
    ensures forall r :: r in repr' && r !in repr ==> SetterFrame(r.props, map[], parts, repr)
    ensures out.Pass? ==> |trail| == |parts|
                          && parts[|parts| - 1] in trail[|parts| - 1].props
                          && trail[|parts| - 1].props[parts[|parts| - 1]] == value
    ensures out.Fail? ==> !LastUnique(parts)
    ensures LastUnique(parts) ==> out.Pass? && Lookup(repr', target, parts) == Some(value)
  {
    var done;
    ghost var before := map r | r in repr :: r.props;
    ghost var now, current, i;
    done, now, repr', trail, current, i := SetterLoop(target, parts, value, repr, before);
    Settled(target, parts, value, repr, before, now, repr', trail, current, i);
    out := if done then Pass else Fail(TypeError);
    if LastUnique(parts) {
      LocateAlong(repr', trail, parts, 0, |parts| - 1);
    }
  }

  /** The getter and the remover: for each segment, stop with `undefined`
      if the current object has no such own property; at the segment equal
      to the last one, return the property (getter) or delete it (remover).
      A remover that deletes before the end of the key then steps into the
      deleted, `undefined`, property, which is a type error. */
  method Walk(target: Record, parts: seq<string>, remove: bool, ghost repr: set<Record>)
      returns (r: Result<Option<Prop>, Error>)
    requires |parts| >= 1 && Closed(repr) && target in repr
    modifies if remove then repr else {}
    ensures Closed(repr)
    ensures !remove ==> r == Ok(old(Lookup(repr, target, parts)))
    ensures old(Locate(repr, Obj(target), parts, 0)).None? ==> r == Ok(None) && unchanged(repr)
    ensures remove && old(Locate(repr, Obj(target), parts, 0)).Some? ==>
      var holder := old(Locate(repr, Obj(target), parts, 0)).value.0;
      var at := old(Locate(repr, Obj(target), parts, 0)).value.1;
      holder.props == old(holder.props) - {parts[|parts| - 1]}
      && (forall o :: o in repr && o != holder ==> o.props == old(o.props))
      && r == (if at == |parts| - 1 then Ok(None) else Err(TypeError))
    ensures remove ==> Lookup(repr, target, parts) == None
  {
    var last := parts[|parts| - 1];
    var current := Obj(target);
    ghost var trail: seq<Record> := [target];
    var i := 0;
    while i < |parts|
      invariant 0 <= i <= |parts| && Within(current, repr)
      invariant Locate(repr, Obj(target), parts, 0) == Locate(repr, current, parts, i)
      invariant forall j :: 0 <= j < i ==> parts[j] != last
      invariant forall j :: 0 <= j < |trail| ==> trail[j] in repr
      invariant current.Obj? ==> |trail| == i + 1 && trail[0] == target && trail[i] == current.rec && Linked(trail, parts, 0, i)
    {
      var part := parts[i];
      if !current.Obj? || part !in current.rec.props {
        return Ok(None);
      }
      var rec := current.rec;
      if part == last {
        if !remove {
          return Ok(Some(rec.props[part]));
        }
        rec.props := rec.props - {part};
        LocateAlong(repr, trail, parts, 0, i);
        // Past the deletion the walk continues into `undefined`.
        if i + 1 < |parts| {
          return Err(TypeError);
        }
        return Ok(None);
      }
      current := rec.props[part];
      if current.Obj? {
        trail := trail + [current.rec];
      }
      i := i + 1;
    }
    assert false;
  }

  /** `namespace(object, key[, value])`: anything but an object as target
      gives `undefined`; otherwise the key is split at every dot (empty
      segments included) and the mode decides what happens. A setter
      reports the objects it walked through as `trail`; no other object
      changes. */
  method Namespace(target: Option<Record>, key: string, mode: Mode, ghost repr: set<Record>)
      returns (r: Result<Option<Prop>, Error>, ghost repr': set<Record>, ghost trail: seq<Record>)
    requires Closed(repr) && (target.Some? ==> target.value in repr)
    requires mode.Setter? ==> Within(mode.value, repr)
    modifies if target.Some? && !mode.Getter? then repr else {}
    ensures repr <= repr' && fresh(repr' - repr) && Closed(repr')
    ensures !mode.Setter? ==> repr' == repr
    ensures target.None? ==> r == Ok(None) && unchanged(repr)
    ensures target.Some? && mode.Getter? ==> r == Ok(old(Lookup(repr, target.value, Split(key, '.')))) && unchanged(repr)
    ensures target.Some? && mode.Setter? ==>
      (r.Ok? ==> r.value == None)
      && (LastUnique(Split(key, '.')) ==>
            r == Ok(None) && Lookup(repr', target.value, Split(key, '.')) == Some(mode.value))
    ensures target.Some? && mode.Setter? ==>
      1 <= |trail| <= |Split(key, '.')| && trail[0] == target.value && Linked(trail, Split(key, '.'), 0, |trail| - 1)
      && (forall o :: o in repr && o !in trail ==> o.props == old(o.props))
      && (forall o :: o in repr ==> SetterFrame(o.props, old(o.props), Split(key, '.'), repr))
      && (forall o :: o in repr' && o !in repr ==> SetterFrame(o.props, map[], Split(key, '.'), repr))
    ensures target.Some? && mode.Remover? && old(Locate(repr, Obj(target.value), Split(key, '.'), 0)).None? ==>
      r == Ok(None) && unchanged(repr)
    ensures target.Some? && mode.Remover? && old(Locate(repr, Obj(target.value), Split(key, '.'), 0)).Some? ==>
      var parts := Split(key, '.');
      var holder := old(Locate(repr, Obj(target.value), parts, 0)).value.0;
      var at := old(Locate(repr, Obj(target.value), parts, 0)).value.1;
      holder.props == old(holder.props) - {parts[|parts| - 1]}
      && (forall o :: o in repr && o != holder ==> o.props == old(o.props))
      && r == (if at == |parts| - 1 then Ok(None) else Err(TypeError))
    ensures target.Some? && mode.Remover? ==> Lookup(repr', target.value, Split(key, '.')) == None
    ensures r.Err? ==> !LastUnique(Split(key, '.'))
  {
    repr', trail := repr, [];
    if target.None? {
      return Ok(None), repr', trail;
    }
    var parts := Split(key, '.');
    match mode
    case Setter(value) =>
      var out;
      out, repr', trail := Assign(target.value, parts, value, repr);
      r := if out.Pass? then Ok(None) else Err(out.error);
    case Getter =>
      r := Walk(target.value, parts, false, repr);
    case Remover =>
      r := Walk(target.value, parts, true, repr);
  }
}

=== FILE: paths.dfy ===
/** The path resolver: `parsePath` turns a selector such as `"a.b[2].c"` into
    the segments `["a", "b", "2", "c"]`. It rewrites every bracketed decimal
    index `[n]` to `.n`, splits at the dots and drops the empty pieces. */
module Paths {
  import opened Text

  /** The number of decimal digits at the start of `s`. */
  function DigitRun(s: string): (n: nat)
    ensures n <= |s| && AllDigits(s[..n])
    ensures n < |s| ==> !IsDigit(s[n])
  {
    if s != [] && IsDigit(s[0]) then
      var n := 1 + DigitRun(s[1..]);
      assert s[..n] == [s[0]] + s[1..][..n - 1];
      n
    else 0
  }

  /** The regular-expression replacement `replace(/\[(\d+)\]/g, ".$1")`:
      scanning left to right, each `[` followed by one or more digits and a
      `]` becomes `.` followed by those digits; every other character is kept. */
  function ReplaceIndices(s: string): string
    decreases |s|
  {
    if s == [] then []
    else if s[0] == '[' then
      var n := DigitRun(s[1..]);
      if n > 0 && n + 1 < |s| && s[n + 1] == ']' then ['.'] + s[1..n + 1] + ReplaceIndices(s[n + 2..])
      else ['['] + ReplaceIndices(s[1..])
    else [s[0]] + ReplaceIndices(s[1..])
  }

  /** `filter(Boolean)` on strings: the non-empty pieces, in order. */
  function NonEmpty(pieces: seq<string>): (r: seq<string>)
    ensures forall i :: 0 <= i < |r| ==> r[i] != [] && r[i] in pieces
    ensures (forall i :: 0 <= i < |pieces| ==> pieces[i] != []) ==> r == pieces
  {
    if pieces == [] then []
    else (if pieces[0] == [] then [] else [pieces[0]]) + NonEmpty(pieces[1..])
  }

  /** `parsePath`: the segments a selector addresses. No segment is empty and
      none contains a dot. */
  function ParsePath(path: string): (segments: seq<string>)
    ensures forall i :: 0 <= i < |segments| ==> segments[i] != [] && '.' !in segments[i]
  {
    NonEmpty(Split(ReplaceIndices(path), '.'))
  }

  /** The empty selector addresses the whole value. */
  lemma ParsePathEmpty()
    ensures ParsePath("") == []
  {
  }

  /** A non-digit that is not `]` ends every digit run. */
  lemma DigitRunAppend(x: string, c: string)
    requires c != [] && !IsDigit(c[0])
    ensures DigitRun(x + c) == DigitRun(x)
  {
    if x != [] && IsDigit(x[0]) {
      assert (x + c)[1..] == x[1..] + c;
      DigitRunAppend(x[1..], c);
    } else if x == [] {
      assert x + c == c;
    }
  }

  lemma {:induction false} DigitRunAll(d: string)
    requires AllDigits(d)
    ensures DigitRun(d) == |d|
  {
    if d != [] {
      DigitRunAll(d[1..]);
    }
  }

  /** The replacement of a concatenation splits at a point where no match can
      straddle: the right part starts with neither a digit nor `]`. */
  lemma {:induction false} ReplaceAppend(a: string, c: string)
    requires c != [] && !IsDigit(c[0]) && c[0] != ']'
    ensures ReplaceIndices(a + c) == ReplaceIndices(a) + ReplaceIndices(c)
    decreases |a|, 2
  {
    if a == [] {
      assert a + c == c;
    } else if a[0] == '[' {
      ReplaceAppendBracket(a, c);
    } else {
      var s := a + c;
      assert s[0] == a[0];
      assert s[1..] == a[1..] + c;
      ReplaceAppend(a[1..], c);
    }
  }

  /** The case of `ReplaceAppend` where the left part starts with `[`. */
  lemma {:induction false} ReplaceAppendBracket(a: string, c: string)
    requires c != [] && !IsDigit(c[0]) && c[0] != ']'
    requires a != [] && a[0] == '['
    ensures ReplaceIndices(a + c) == ReplaceIndices(a) + ReplaceIndices(c)
    decreases |a|, 1
  {
    var s := a + c;
    assert s[0] == '[';
    assert s[1..] == a[1..] + c;
    DigitRunAppend(a[1..], c);
    var n := DigitRun(a[1..]);
    if n > 0 && n + 1 < |a| && a[n + 1] == ']' {
      ReplaceAppendMatch(a, c, n);
    } else {
      ReplaceAppendNoMatch(a, c, n);
    }
  }

  /** `[digits]` at the start of the left part is replaced as a whole. */
  lemma {:induction false} ReplaceAppendMatch(a: string, c: string, n: nat)
    requires c != [] && !IsDigit(c[0]) && c[0] != ']'
    requires a != [] && a[0] == '[' && n == DigitRun(a[1..]) == DigitRun((a + c)[1..])
    requires n > 0 && n + 1 < |a| && a[n + 1] == ']'
    ensures ReplaceIndices(a + c) == ReplaceIndices(a) + ReplaceIndices(c)
    decreases |a|, 0
  {
    var s := a + c;
    assert s[0] == '[' && s[n + 1] == a[n + 1];
    assert s[1..n + 1] == a[1..n + 1];
    assert s[n + 2..] == a[n + 2..] + c;
    ReplaceAppend(a[n + 2..], c);
    assert ReplaceIndices(s) == ['.'] + a[1..n + 1] + ReplaceIndices(a[n + 2..] + c);
  }

  /** A `[` at the start of the left part that opens no index is kept. */
  lemma {:induction false} ReplaceAppendNoMatch(a: string, c: string, n: nat)
    requires c != [] && !IsDigit(c[0]) && c[0] != ']'
    requires a != [] && a[0] == '[' && n == DigitRun(a[1..]) == DigitRun((a + c)[1..])
    requires !(n > 0 && n + 1 < |a| && a[n + 1] == ']')
    ensures ReplaceIndices(a + c) == ReplaceIndices(a) + ReplaceIndices(c)
    decreases |a|, 0
  {
    KeptBracketAppend(a, c, n);
    KeptBracket(a, n);
    ReplaceAppend(a[1..], c);
    Assoc3(['['], ReplaceIndices(a[1..]), ReplaceIndices(c));
  }

  /** Concatenation regroups. */
  lemma Assoc3(x: string, y: string, z: string)
    ensures x + (y + z) == (x + y) + z
  {
  }

  /** The `[` stays unmatched when more text is appended after it. */
  lemma KeptBracketAppend(a: string, c: string, n: nat)
    requires c != [] && !IsDigit(c[0]) && c[0] != ']'
    requires a != [] && a[0] == '[' && n == DigitRun(a[1..]) == DigitRun((a + c)[1..])
    requires !(n > 0 && n + 1 < |a| && a[n + 1] == ']')
    ensures ReplaceIndices(a + c) == ['['] + ReplaceIndices(a[1..] + c)
  {
    var s := a + c;
    assert s[0] == '[' && s[1..] == a[1..] + c;
    assert n + 1 <= |a|;
    if n + 1 < |a| {
      assert s[n + 1] == a[n + 1];
    } else {
      assert s[n + 1] == c[0];
    }
    KeptBracket(s, n);
  }

  /** A `[` that opens no index is kept as it is. */
  lemma KeptBracket(s: string, n: nat)
    requires s != [] && s[0] == '[' && n == DigitRun(s[1..])
    requires !(n > 0 && n + 1 < |s| && s[n + 1] == ']')
    ensures ReplaceIndices(s) == ['['] + ReplaceIndices(s[1..])
  {
  }

  /** Digits pass through the replacement unchanged. */
  lemma {:induction false} ReplaceDigits(d: string, b: string)
    requires AllDigits(d)
    ensures ReplaceIndices(d + b) == d + ReplaceIndices(b)
  {
    if d != [] {
      assert (d + b)[1..] == d[1..] + b;
      ReplaceDigits(d[1..], b);
    } else {
      assert d + b == b;
    }
  }

  /** A string without `[` is left as it is. */
  lemma {:induction false} ReplaceNoBracket(s: string)
    requires '[' !in s
    ensures ReplaceIndices(s) == s
  {
    if s != [] {
      ReplaceNoBracket(s[1..]);
    }
  }

  lemma {:induction false} JoinNoBracket(segments: seq<string>)
    requires |segments| >= 1
    requires forall i :: 0 <= i < |segments| ==> '[' !in segments[i]
    ensures '[' !in Join(segments, '.')
  {
    if |segments| > 1 {
      JoinNoBracket(segments[1..]);
    }
  }

  /** Rewriting `"[d]" + b` gives `"." + d` followed by the rewritten rest:
      a leading bracketed decimal index becomes a dotted segment. */
  lemma ReplaceBracket(d: string, b: string)
    requires d != [] && AllDigits(d)
    ensures ReplaceIndices("[" + d + "]" + b) == "." + d + ReplaceIndices(b)
  {
    var s := "[" + d + "]" + b;
    DigitRunAll(d);
    assert s[1..] == d + ("]" + b);
    DigitRunAppend(d, "]" + b);
    assert s[|d| + 1] == ']';
    assert s[1..|d| + 1] == d;
    assert s[|d| + 2..] == b;
  }

  lemma ReplaceDot(d: string, b: string)
    requires AllDigits(d)
    ensures ReplaceIndices("." + d + b) == "." + d + ReplaceIndices(b)
  {
    var s := "." + d + b;
    assert s[1..] == d + b;
    ReplaceDigits(d, b);
  }

  /** `"…[n]…"` and `"….n…"` resolve to the same segments: a bracketed
      decimal index is the same as a dotted segment, whatever surrounds it. */
  lemma BracketIsDot(a: string, d: string, b: string)
    requires d != [] && AllDigits(d)
    ensures ParsePath(a + "[" + d + "]" + b) == ParsePath(a + "." + d + b)
  {
    var bracketed := "[" + d + "]" + b;
    var dotted := "." + d + b;
    assert a + "[" + d + "]" + b == a + bracketed;
    assert a + "." + d + b == a + dotted;
    ReplaceAppend(a, bracketed);
    ReplaceAppend(a, dotted);
    ReplaceBracket(d, b);
    ReplaceDot(d, b);
  }

  /** Dotted segments round-trip: joining non-empty segments that contain no
      dot and no bracket with dots, then parsing, gives the segments back. */
  lemma ParseJoin(segments: seq<string>)
    requires |segments| >= 1
    requires forall i :: 0 <= i < |segments| ==> segments[i] != [] && '.' !in segments[i] && '[' !in segments[i]
    ensures ParsePath(Join(segments, '.')) == segments
  {
    JoinNoBracket(segments);
    ReplaceNoBracket(Join(segments, '.'));
    SplitJoin(segments, '.');
  }

  /** The selector `"a.b.2"` resolves to `["a", "b", "2"]`. */
  lemma ParseDotted()
    ensures ParsePath("a.b.2") == ["a", "b", "2"]
  {
    var segments := ["a", "b", "2"];
    ParseJoin(segments);
    assert segments[1..][1..] == ["2"] && Join(["2"], '.') == "2";
    assert Join(segments[1..], '.') == "b.2";
    assert Join(segments, '.') == "a.b.2";
  }

  /** The selector `"a.b[2]"` resolves like `"a.b.2"`. */
  lemma ParseBracketed()
    ensures ParsePath("a.b[2]") == ParsePath("a.b.2")
  {
    BracketIsDot("a.b", "2", "");
    assert "a.b" + "[" + "2" + "]" + "" == "a.b[2]";
    assert "a.b" + "." + "2" + "" == "a.b.2";
  }

  /** The selector `"a.b[2]"` resolves like `"a.b.2"`, to `["a", "b", "2"]`. */
  lemma ParseExample()
    ensures ParsePath("a.b[2]") == ParsePath("a.b.2") == ["a", "b", "2"]
  {
    ParseDotted();
    ParseBracketed();
  }
}

=== FILE: snapshots.dfy ===
/** The raise stack of a store as a value: `raise` saves the current data
    on a stack and keeps working on a copy, `lower` goes back to the saved
    data, `settle` drops the newest saved copy and keeps the current data,
    `settleAll` drops every saved copy. */
module Snapshots {
  import opened Wrappers
  import opened Values

  /** The current data and the saved copies, oldest first. */
  datatype History = History(current: Value, stack: seq<Value>)

  function Raise(h: History): (r: History)
    ensures r.current == h.current && r.stack == h.stack + [h.current]
  {
    History(h.current, h.stack + [h.current])
  }

  /** Without a saved copy, `lower` does nothing. */
  function Lower(h: History): (r: History)
    ensures h.stack == [] ==> r == h
    ensures h.stack != [] ==> r.current == h.stack[|h.stack| - 1] && h.stack == r.stack + [r.current]
  {
    if h.stack == [] then h
    else History(h.stack[|h.stack| - 1], h.stack[..|h.stack| - 1])
  }

  function Settle(h: History): (r: History)
    ensures r.current == h.current
    ensures h.stack == [] ==> r.stack == []
    ensures h.stack != [] ==> h.stack == r.stack + [h.stack[|h.stack| - 1]]
  {
    if h.stack == [] then h
    else History(h.current, h.stack[..|h.stack| - 1])
  }

  function SettleAll(h: History): (r: History)
    ensures r.current == h.current && r.stack == []
  {
    History(h.current, [])
  }

  /** The store operations that touch the data or the stack. A write that
      succeeds (`set`, `merge` or `remove`, see `Values.Write`) replaces the
      current data by its result; one that fails changes nothing and is not
      listed. */
  datatype Op = RaiseOp | LowerOp | SettleOp | SettleAllOp | PutOp(data: Value)

  function Step(h: History, op: Op): History {
    match op
    case RaiseOp => Raise(h)
    case LowerOp => Lower(h)
    case SettleOp => Settle(h)
    case SettleAllOp => SettleAll(h)
    case PutOp(v) => History(v, h.stack)
  }

  function Run(h: History, ops: seq<Op>): History
    decreases |ops|
  {
    if ops == [] then h else Run(Step(h, ops[0]), ops[1..])
  }

  /** The operations stay within `d` levels raised above a base: they never
      lower or settle below it and never settle everything. */
  predicate Inside(ops: seq<Op>, d: nat)
    decreases |ops|
  {
    ops == [] ||
      match ops[0]
      case RaiseOp => Inside(ops[1..], d + 1)
      case LowerOp => d > 0 && Inside(ops[1..], d - 1)
      case SettleOp => d > 0 && Inside(ops[1..], d - 1)
      case SettleAllOp => false
      case PutOp(_) => Inside(ops[1..], d)
  }

  /** How many levels above the base operations that stay inside end. */
  function Depth(ops: seq<Op>, d: nat): nat
    requires Inside(ops, d)
    decreases |ops|
  {
    if ops == [] then d
    else match ops[0]
      case RaiseOp => Depth(ops[1..], d + 1)
      case LowerOp => Depth(ops[1..], d - 1)
      case SettleOp => Depth(ops[1..], d - 1)
      case PutOp(_) => Depth(ops[1..], d)
  }

  lemma {:induction false} RunAppend(h: History, ops: seq<Op>, more: seq<Op>)
    ensures Run(h, ops + more) == Run(Run(h, ops), more)
    decreases |ops|
  {
    if ops != [] {
      assert (ops + more)[0] == ops[0] && (ops + more)[1..] == ops[1..] + more;
      RunAppend(Step(h, ops[0]), ops[1..], more);
    } else {
      assert ops + more == more;
    }
  }

  /** What one operation does to the stack. */
  lemma StepStack(h: History, op: Op)
    ensures op.RaiseOp? ==> Step(h, op).stack == h.stack + [h.current]
    ensures (op.LowerOp? || op.SettleOp?) && h.stack != [] ==> Step(h, op).stack == h.stack[..|h.stack| - 1]
    ensures op.PutOp? ==> Step(h, op).stack == h.stack
  {
  }

  /** One operation that stays inside keeps the copies saved below the
      level it starts from. */
  lemma StepKeepsBase(h: History, op: Op, d: nat)
    requires |h.stack| >= d && !op.SettleAllOp? && (op.LowerOp? || op.SettleOp? ==> d > 0)
    ensures |Step(h, op).stack| == |h.stack| - d + Next(op, d)
    ensures Step(h, op).stack[..|h.stack| - d] == h.stack[..|h.stack| - d]
  {
    StepStack(h, op);
  }

  /** The depth after one operation that stays inside. */
  function Next(op: Op, d: nat): nat
    requires !op.SettleAllOp? && (op.LowerOp? || op.SettleOp? ==> d > 0)
  {
    match op
    case RaiseOp => d + 1
    case PutOp(_) => d
    case _ => d - 1
  }

  lemma InsideStep(ops: seq<Op>, d: nat)
    requires ops != [] && Inside(ops, d)
    ensures !ops[0].SettleAllOp? && (ops[0].LowerOp? || ops[0].SettleOp? ==> d > 0)
    ensures Inside(ops[1..], Next(ops[0], d)) && Depth(ops, d) == Depth(ops[1..], Next(ops[0], d))
  {
  }

  lemma RunStep(h: History, ops: seq<Op>)
    requires ops != []
    ensures Run(h, ops) == Run(Step(h, ops[0]), ops[1..])
  {
  }

  /** Operations that stay inside `d` levels leave the copies saved below
      those levels untouched, and end with the stack as high as their depth
      says. */
  lemma {:induction false} InsideKeepsBase(h: History, ops: seq<Op>, d: nat)
    requires |h.stack| >= d && Inside(ops, d)
    ensures var r := Run(h, ops);
            |r.stack| == |h.stack| - d + Depth(ops, d)
            && r.stack[..|h.stack| - d] == h.stack[..|h.stack| - d]
    decreases |ops|
  {
    if ops != [] {
      InsideStep(ops, d);
      RunStep(h, ops);
      StepKeepsBase(h, ops[0], d);
      InsideKeepsBase(Step(h, ops[0]), ops[1..], Next(ops[0], d));
    }
  }

  /** `raise`, then work that comes back to the same level, then `lower`
      restores the data and the stack exactly as they were. */
  lemma RaiseRunLower(h: History, ops: seq<Op>)
    requires Inside(ops, 0) && Depth(ops, 0) == 0
    ensures Run(h, [RaiseOp] + ops + [LowerOp]) == h
  {
    RunAppend(h, [RaiseOp] + ops, [LowerOp]);
    RunAppend(h, [RaiseOp], ops);
    var raised := Raise(h);
    assert Run(h, [RaiseOp]) == raised;
    InsideKeepsBase(raised, ops, 0);
    var r := Run(raised, ops);
    assert r.stack == h.stack + [h.current] by {
      assert r.stack[..|raised.stack|] == raised.stack;
    }
  }

  /** `raise`, then work that comes back to the same level, then `settle`
      keeps the work and leaves the stack as it was. */
  lemma RaiseRunSettle(h: History, ops: seq<Op>)
    requires Inside(ops, 0) && Depth(ops, 0) == 0
    ensures Run(h, [RaiseOp] + ops + [SettleOp]) == History(Run(Raise(h), ops).current, h.stack)
  {
    RunAppend(h, [RaiseOp] + ops, [SettleOp]);
    RunAppend(h, [RaiseOp], ops);
    var raised := Raise(h);
    assert Run(h, [RaiseOp]) == raised;
    InsideKeepsBase(raised, ops, 0);
    var r := Run(raised, ops);
    assert r.stack == h.stack + [h.current] by {
      assert r.stack[..|raised.stack|] == raised.stack;
    }
  }
}

=== FILE: store.dfy ===
/** The observable store: a class holding immutable data, a raise stack and
    a list of bindings, and the binding class whose handlers the store
    notifies after every change. The data operations are specified by the
    functions of `Values`, the stack by `Snapshots` and the notifications by
    `Watches`. */
module Stores {
  import opened Wrappers
  import opened Text
  import opened Values
  import opened Snapshots
  import opened Watches

  /** A module-level counter that hands out consecutive numbers. */
  class Counter {
    var next: nat

    constructor ()
      ensures next == 0
    {
      next := 0;
    }

    /** The post-increment `counter++`. */
    method Take() returns (n: nat)
      modifies this
      ensures n == old(next) && next == old(next) + 1
    {
      n := next;
      next := next + 1;
    }
  }

  /** The handlers' side: every run of a handler, in order. */
  class CallLog {
    var calls: seq<Call>

    constructor ()
      ensures calls == []
    {
      calls := [];
    }

    method Record(c: Call)
      modifies this
      ensures calls == old(calls) + [c]
    {
      calls := calls + [c];
    }
  }

  /** The automatic name of the store made when the counter stood at `n`. */
  function AutoName(n: nat): string {
    "Store_" + DecimalString(n)
  }

  /** Automatic names are never reused. */
  lemma AutoNamesDistinct(m: nat, n: nat)
    ensures AutoName(m) == AutoName(n) <==> m == n
  {
    if AutoName(m) == AutoName(n) {
      var pre := "Store_";
      assert DecimalString(m) == AutoName(m)[|pre|..];
      assert DecimalString(n) == AutoName(n)[|pre|..];
      DecimalInjective(m, n);
    }
  }

  /** The sequence without any occurrence of `x`, order kept. */
  function Without<T(==)>(xs: seq<T>, x: T): (r: seq<T>)
    ensures |r| <= |xs|
    ensures forall i :: 0 <= i < |r| ==> r[i] != x && r[i] in xs
    ensures x !in xs ==> r == xs
  {
    if xs == [] then []
    else (if xs[0] == x then [] else [xs[0]]) + Without(xs[1..], x)
  }

  /** No element occurs twice. */
  ghost predicate Distinct<T>(xs: seq<T>) {
    forall i, j :: 0 <= i < j < |xs| ==> xs[i] != xs[j]
  }

  /** Everything but `x` survives. */
  lemma {:induction false} WithoutKeeps<T>(xs: seq<T>, x: T, i: nat)
    requires i < |xs| && xs[i] != x
    ensures xs[i] in Without(xs, x)
  {
    if i > 0 {
      WithoutKeeps(xs[1..], x, i - 1);
    }
  }

  /** Removing an element keeps a list free of duplicates. */
  lemma {:induction false} WithoutDistinct<T>(xs: seq<T>, x: T)
    requires Distinct(xs)
    ensures Distinct(Without(xs, x))
  {
    if xs != [] {
      WithoutDistinct(xs[1..], x);
      var rest := Without(xs[1..], x);
      if xs[0] != x {
        assert xs[0] !in xs[1..] by {
          forall k | 0 <= k < |xs[1..]|
            ensures xs[1..][k] != xs[0]
          {
            assert xs[1..][k] == xs[k + 1];
          }
        }
        var r := [xs[0]] + rest;
        assert Without(xs, x) == r;
        forall i, j | 0 <= i < j < |r|
          ensures r[i] != r[j]
        {
          assert r[j] == rest[j - 1] && rest[j - 1] in xs[1..];
          if i == 0 {
            assert r[i] == xs[0];
          } else {
            assert r[i] == rest[i - 1];
            assert 0 <= i - 1 < j - 1 < |rest|;
          }
        }
      }
    }
  }

  lemma NoticesSnoc(ws: seq<Watch>, i: nat, root: Value)
    requires i < |ws|
    ensures Notices(ws[..i + 1], root) == Notices(ws[..i], root) + Watches.Fire(ws[i], root, false).1
  {
    assert ws[..i + 1][..i] == ws[..i];
  }

  /** One more binding's fire extends the log of a notification. */
  lemma LogStep(calls: seq<Call>, ws: seq<Watch>, i: nat, root: Value, before: seq<Call>, after: seq<Call>)
    requires i < |ws|
    requires before == calls + Notices(ws[..i], root)
    requires after == before + Watches.Fire(ws[i], root, false).1
    ensures after == calls + Notices(ws[..i + 1], root)
  {
    NoticesSnoc(ws, i, root);
    ConcatAssoc(calls, Notices(ws[..i], root), Watches.Fire(ws[i], root, false).1);
  }

  lemma ConcatAssoc<T>(a: seq<T>, b: seq<T>, c: seq<T>)
    ensures a + (b + c) == (a + b) + c
  {
  }

  /** One step of the backward removal loop: looking at position `i` and
      splicing it out when it holds `x` extends the filtered suffix by one. */
  lemma SpliceStep<T>(xs: seq<T>, cur: seq<T>, i: nat, x: T)
    requires i < |xs| && cur == xs[..i + 1] + Without(xs[i + 1..], x)
    ensures i < |cur| && cur[i] == xs[i]
    ensures (if cur[i] == x then cur[..i] + cur[i + 1..] else cur) == xs[..i] + Without(xs[i..], x)
  {
    var rest := Without(xs[i + 1..], x);
    WithoutAt(xs, i, x);
    assert xs[..i + 1] == xs[..i] + [xs[i]];
    ConcatAssoc(xs[..i], [xs[i]], rest);
    if xs[i] == x {
      SpliceOut(xs[..i], xs[i], rest);
    }
  }

  /** `Without` on a suffix looks at its first element. */
  lemma WithoutAt<T>(xs: seq<T>, i: nat, x: T)
    requires i < |xs|
    ensures Without(xs[i..], x) == (if xs[i] == x then [] else [xs[i]]) + Without(xs[i + 1..], x)
  {
    assert xs[i..][0] == xs[i] && xs[i..][1..] == xs[i + 1..];
  }

  /** Cutting the middle element out of `a + [m] + b`. */
  lemma SpliceOut<T>(a: seq<T>, m: T, b: seq<T>)
    ensures var c := a + ([m] + b); c[|a|] == m && c[..|a|] + c[|a| + 1..] == a + b
  {
    var c := a + ([m] + b);
    assert c[..|a|] == a;
    assert c[|a| + 1..] == b;
  }

  /** The states of a list of bindings, in order. */
  function StatesOf(bs: seq<Binding>): (ws: seq<Watch>)
    reads bs
    ensures |ws| == |bs| && forall j :: 0 <= j < |bs| ==> ws[j] == bs[j].State()
  {
    if bs == [] then [] else StatesOf(bs[..|bs| - 1]) + [bs[|bs| - 1].State()]
  }

  class Binding {
    const id: nat
    const store: Store
    const selectors: seq<string>
    var paused: bool
    var oldValues: map<string, Value>

    function State(): Watch
      reads this
    {
      Watch(id, selectors, paused, oldValues)
    }

    /** A binding takes the next id and remembers the current values of its
        selectors. */
    constructor (store: Store, selectors: seq<string>, ids: Counter)
      modifies ids
      ensures this.store == store && this.selectors == selectors
      ensures id == old(ids.next) && ids.next == old(ids.next) + 1
      ensures State() == NewWatch(id, selectors, store.value)
    {
      var n := ids.Take();
      id := n;
      this.store := store;
      this.selectors := selectors;
      paused := false;
      oldValues := map[];
      new;
      GatherOldValues();
      assert map[] + Baseline(selectors, store.value) == Baseline(selectors, store.value);
    }

    /** Remember the current value of every selector. */
    method GatherOldValues()
      modifies this`oldValues
      ensures oldValues == old(oldValues) + Baseline(selectors, store.value)
    {
      var i := 0;
      while i < |selectors|
        invariant 0 <= i <= |selectors|
        invariant oldValues == old(oldValues) + Baseline(selectors[..i], store.value)
      {
        var v := store.GetImmutable(selectors[i]);
        BaselineSnoc(selectors, i, store.value);
        UpdateAfterUnion(old(oldValues), Baseline(selectors[..i], store.value), selectors[i], v);
        oldValues := oldValues[selectors[i] := v];
        i := i + 1;
      }
      assert selectors[..i] == selectors;
    }

    /** The current values of the selectors, in order. */
    method Results() returns (results: seq<Value>)
      ensures results == Current(selectors, store.value)
    {
      results := [];
      var j := 0;
      while j < |selectors|
        invariant 0 <= j <= |selectors|
        invariant results == Current(selectors[..j], store.value)
      {
        var v := store.Get(selectors[j]);
        CurrentSnoc(selectors, j, store.value);
        results := results + [v];
        j := j + 1;
      }
      assert selectors[..j] == selectors;
    }

    /** Remember the current values and run the handler with them. */
    method Run()
      modifies this`oldValues, store.log
      ensures oldValues == old(oldValues) + Baseline(selectors, store.value)
      ensures store.log.calls == old(store.log.calls) + [Call(id, Current(selectors, store.value))]
    {
      GatherOldValues();
      var results := Results();
      store.log.Record(Call(id, results));
    }

    /** The scan of `fire`: look at the selectors in order and stop at the
        first whose value differs from the remembered one, or at the first
        selector at all when forced. */
    method Changed(force: bool) returns (changed: bool)
      ensures changed <==> |selectors| > 0 && (force || Differs(State(), store.value))
    {
      ghost var root := store.value;
      ghost var read := (s: string) => Read(root, s);
      var i := 0;
      while i < |selectors|
        invariant 0 <= i <= |selectors|
        invariant Unchanged(oldValues, selectors[..i], read)
        invariant i > 0 ==> !force
      {
        var selector := selectors[i];
        var oldValue := if selector in oldValues then oldValues[selector] else Undefined;
        var newValue := store.GetImmutable(selector);
        if oldValue != newValue || force {
          assert !force ==> Cached(State().cache, State().selectors[i]) != Read(store.value, State().selectors[i]);
          return true;
        }
        assert selectors[..i + 1][..i] == selectors[..i];
        i := i + 1;
      }
      assert selectors[..i] == selectors;
      UnchangedAll(oldValues, selectors, read);
      return false;
    }

    /** `fire`: unless paused, scan the selectors; on a change, or at once
        when forced, remember the current values and run the handler with
        them. */
    method Fire(force: bool)
      modifies this`oldValues, store.log
      ensures State() == Watches.Fire(old(State()), store.value, force).0
      ensures store.log.calls == old(store.log.calls) + Watches.Fire(old(State()), store.value, force).1
    {
      ghost var w := State();
      FireRunsIff(w, store.value, force);
      if paused {
        return;
      }
      var changed := Changed(force);
      if changed {
        Run();
      }
    }

    /** Setting `paused` fires the binding, so resuming it catches up. */
    method SetPaused(value: bool)
      modifies this`paused, this`oldValues, store.log
      ensures State() == Watches.Fire(old(State()).(paused := value), store.value, false).0
      ensures store.log.calls == old(store.log.calls) + Watches.Fire(old(State()).(paused := value), store.value, false).1
    {
      paused := value;
      Fire(false);
    }

    /** `unbind` on the binding removes it from its store. */
    method Unbind()
      requires store.Valid()
      modifies store`bindings
      ensures store.Valid() && store.bindings == Without(old(store.bindings), this)
    {
      store.Unbind(this);
    }
  }

  /** Every selector of `sels` still reads, through `read`, as remembered
      in `cache`. */
  ghost predicate Unchanged(cache: map<string, Value>, sels: seq<string>, read: string -> Value)
    decreases |sels|
  {
    sels != [] ==>
      Unchanged(cache, sels[..|sels| - 1], read) && Cached(cache, sels[|sels| - 1]) == read(sels[|sels| - 1])
  }

  lemma {:induction false} UnchangedAll(cache: map<string, Value>, sels: seq<string>, read: string -> Value)
    requires Unchanged(cache, sels, read)
    ensures forall i :: 0 <= i < |sels| ==> Cached(cache, sels[i]) == read(sels[i])
    decreases |sels|
  {
    if sels != [] {
      var n := |sels| - 1;
      var front := sels[..n];
      UnchangedAll(cache, front, read);
      forall i | 0 <= i < n
        ensures Cached(cache, sels[i]) == read(sels[i])
      {
        assert front[i] == sels[i];
      }
    }
  }

  lemma UpdateAfterUnion<K, V>(a: map<K, V>, b: map<K, V>, k: K, v: V)
    ensures (a + b)[k := v] == a + b[k := v]
  {
  }

  lemma CurrentSnoc(selectors: seq<string>, i: nat, root: Value)
    requires i < |selectors|
    ensures Current(selectors[..i + 1], root) == Current(selectors[..i], root) + [Read(root, selectors[i])]
  {
  }

  lemma BaselineSnoc(selectors: seq<string>, i: nat, root: Value)
    requires i < |selectors|
    ensures Baseline(selectors[..i + 1], root) == Baseline(selectors[..i], root)[selectors[i] := Read(root, selectors[i])]
  {
    assert selectors[..i + 1] == selectors[..i] + [selectors[i]];
  }

  class Store {
    var value: Value
    var stack: seq<Value>
    var bindings: seq<Binding>
    const name: string
    var debug: bool
    const log: CallLog

    /** The data and every saved copy are maps or lists, the bindings are
        distinct and all belong to this store. */
    ghost predicate Valid()
      reads this
    {
      IsContainer(value)
      && (forall i :: 0 <= i < |stack| ==> IsContainer(stack[i]))
      && Distinct(bindings)
      && (forall b :: b in bindings ==> b.store == this)
    }

    function History(): History
      reads this
    {
      Snapshots.History(value, stack)
    }

    /** Every binding, in state `ws` before, has fired, unforced, against
        the current data, and the handler runs were logged after `calls` in
        binding order. */
    ghost predicate Notified(ws: seq<Watch>, calls: seq<Call>)
      reads this, log, bindings
    {
      |bindings| == |ws|
      && (forall j :: 0 <= j < |ws| ==> bindings[j].State() == Watches.Fire(ws[j], value, false).0)
      && log.calls == calls + Notices(ws, value)
    }

    /** A store holds its preset (an empty map without one) and is named
        after the option, or else after the store counter, which only then
        advances. */
    constructor (preset: Value, given: Option<string>, debug: bool, counter: Counter)
      requires Seed(preset).Ok?
      modifies counter
      ensures Valid() && fresh(log) && log.calls == []
      ensures value == Seed(preset).value && stack == [] && bindings == [] && this.debug == debug
      ensures given.Some? && given.value != "" ==> name == given.value && counter.next == old(counter.next)
      ensures !(given.Some? && given.value != "") ==> name == AutoName(old(counter.next)) && counter.next == old(counter.next) + 1
    {
      this.debug := debug;
      if given.Some? && given.value != "" {
        name := given.value;
      } else {
        var n := counter.Take();
        name := AutoName(n);
      }
      value := Seed(preset).value;
      stack := [];
      bindings := [];
      log := new CallLog();
    }

    /** `new Store(preset, options)`: a primitive preset is refused before
        anything happens, the counter included. */
    static method Create(preset: Value, given: Option<string>, debug: bool, counter: Counter) returns (r: Result<Store, Error>)
      modifies counter
      ensures r.Err? <==> Seed(preset).Err?
      ensures r.Err? ==> r.error == PresetRejected && counter.next == old(counter.next)
      ensures r.Ok? ==> fresh(r.value) && r.value.Valid() && r.value.value == Seed(preset).value && r.value.stack == []
    {
      match Seed(preset)
      case Err(x) =>
        return Err(x);
      case Ok(_) =>
        var s := new Store(preset, given, debug, counter);
        return Ok(s);
    }

    /** Fire every binding, in order. */
    method FireBindings()
      requires Valid()
      modifies bindings, log
      ensures Notified(old(StatesOf(bindings)), old(log.calls))
    {
      var bs := bindings;
      ghost var ws := StatesOf(bs);
      var i := 0;
      while i < |bs|
        invariant 0 <= i <= |bs|
        invariant FiredUpTo(bs, ws, i)
        invariant log.calls == old(log.calls) + Notices(ws[..i], value)
      {
        ghost var before := log.calls;
        FireNext(bs, ws, i);
        LogStep(old(log.calls), ws, i, value, before, log.calls);
        i := i + 1;
      }
      assert ws[..i] == ws;
      assert bindings == bs && old(StatesOf(bindings)) == ws;
    }

    /** The bindings before position `i` have fired against the current
        data; the others are still in their states `ws`. */
    ghost predicate FiredUpTo(bs: seq<Binding>, ws: seq<Watch>, i: nat)
      reads this, bs
    {
      |bs| == |ws| && i <= |bs|
      && (forall j :: 0 <= j < i ==> bs[j].State() == Watches.Fire(ws[j], value, false).0)
      && (forall j :: i <= j < |bs| ==> bs[j].State() == ws[j])
    }

    /** One round of `FireBindings`: the binding at position `i` fires. */
    method FireNext(bs: seq<Binding>, ghost ws: seq<Watch>, i: nat)
      requires Distinct(bs) && (forall b :: b in bs ==> b.store == this)
      requires i < |bs| && FiredUpTo(bs, ws, i)
      modifies bs[i], log
      ensures FiredUpTo(bs, ws, i + 1)
      ensures log.calls == old(log.calls) + Watches.Fire(ws[i], value, false).1
    {
      var b := bs[i];
      assert b.store == this && b.State() == ws[i];
      assert forall j :: 0 <= j < |bs| && j != i ==> bs[j] != b;
      b.Fire(false);
    }

    /** `bind`: a new binding is appended and, unless told otherwise, fired
        at once, forced. */
    method Bind(selectors: seq<string>, initialFire: bool, ids: Counter) returns (b: Binding)
      requires Valid()
      modifies this`bindings, ids, log
      ensures Valid() && fresh(b) && bindings == old(bindings) + [b]
      ensures b.store == this && b.selectors == selectors && b.id == old(ids.next) && ids.next == old(ids.next) + 1
      ensures var w := NewWatch(b.id, selectors, value);
              var r := if initialFire then Watches.Fire(w, value, true) else (w, []);
              b.State() == r.0 && log.calls == old(log.calls) + r.1
      ensures forall j :: 0 <= j < |old(bindings)| ==> bindings[j].State() == old(bindings[j].State())
    {
      b := new Binding(this, selectors, ids);
      bindings := bindings + [b];
      if initialFire {
        b.Fire(true);
      }
    }

    /** `unbind`: every occurrence of the binding is removed, from the back. */
    method Unbind(b: Binding)
      requires Valid()
      modifies this`bindings
      ensures Valid() && bindings == Without(old(bindings), b)
    {
      ghost var bs := bindings;
      var i := |bindings|;
      while i > 0
        invariant 0 <= i <= |bs|
        invariant bindings == bs[..i] + Without(bs[i..], b)
      {
        i := i - 1;
        SpliceStep(bs, bindings, i, b);
        if bindings[i] == b {
          bindings := bindings[..i] + bindings[i + 1..];
        }
      }
      assert bs[0..] == bs;
      WithoutDistinct(bs, b);
    }

    /** `raise`: save the data and go on with a copy of it. */
    method Raise()
      requires Valid()
      modifies this`stack
      ensures Valid() && History() == Snapshots.Raise(old(History()))
    {
      stack := stack + [value];
    }

    /** `lower`: go back to the last saved data and notify the bindings;
        without saved data nothing happens. */
    method Lower()
      requires Valid()
      modifies this`value, this`stack, bindings, log
      ensures Valid() && History() == Snapshots.Lower(old(History()))
      ensures old(stack) != [] ==> Notified(old(StatesOf(bindings)), old(log.calls))
      ensures old(stack) == [] ==>
        value == old(value) && log.calls == old(log.calls) && StatesOf(bindings) == old(StatesOf(bindings))
    {
      if |stack| > 0 {
        ghost var ws := StatesOf(bindings);
        value := stack[|stack| - 1];
        stack := stack[..|stack| - 1];
        assert StatesOf(bindings) == ws;
        FireBindings();
      }
    }

    /** `settle`: drop the last saved data and keep the current data. */
    method Settle()
      requires Valid()
      modifies this`stack
      ensures Valid() && History() == Snapshots.Settle(old(History()))
    {
      if |stack| > 0 {
        stack := stack[..|stack| - 1];
      }
    }

    /** `settleAll`: drop every saved copy. */
    method SettleAll()
      requires Valid()
      modifies this`stack
      ensures Valid() && History() == Snapshots.SettleAll(old(History()))
    {
      if |stack| > 0 {
        stack := [];
      }
    }

    /** A write followed by a notification of the bindings. A write that
        fails changes nothing and notifies nobody. */
    method Apply(selector: string, e: Edit) returns (out: Outcome<Error>)
      requires Valid()
      modifies this`value, bindings, log
      ensures Valid() && stack == old(stack)
      ensures match Write(old(value), selector, e)
              case Ok(v) => out == Pass && value == v && Notified(old(StatesOf(bindings)), old(log.calls))
              case Err(x) =>
                out == Fail(x) && value == old(value) && log.calls == old(log.calls)
                && StatesOf(bindings) == old(StatesOf(bindings))
    {
      match Write(value, selector, e)
      case Err(x) =>
        return Fail(x);
      case Ok(v) =>
        ghost var ws := StatesOf(bindings);
        value := v;
        assert StatesOf(bindings) == ws;
        FireBindings();
        return Pass;
    }

    /** `set`: store a value under a selector. */
    method Set(selector: string, x: Value) returns (out: Outcome<Error>)
      requires Valid()
      modifies this`value, bindings, log
      ensures Valid() && stack == old(stack)
      ensures match Write(old(value), selector, Assign(x))
              case Ok(v) => out == Pass && value == v && Notified(old(StatesOf(bindings)), old(log.calls))
              case Err(e) =>
                out == Fail(e) && value == old(value) && log.calls == old(log.calls)
                && StatesOf(bindings) == old(StatesOf(bindings))
    {
      out := Apply(selector, Assign(x));
    }

    /** `merge`: merge a value into the one under a selector. */
    method Merge(selector: string, src: Value) returns (out: Outcome<Error>)
      requires Valid()
      modifies this`value, bindings, log
      ensures Valid() && stack == old(stack)
      ensures match Write(old(value), selector, MergeWith(src))
              case Ok(v) => out == Pass && value == v && Notified(old(StatesOf(bindings)), old(log.calls))
              case Err(e) =>
                out == Fail(e) && value == old(value) && log.calls == old(log.calls)
                && StatesOf(bindings) == old(StatesOf(bindings))
    {
      out := Apply(selector, MergeWith(src));
    }

    /** `remove`: delete what is under a selector. */
    method Remove(selector: string) returns (out: Outcome<Error>)
      requires Valid()
      modifies this`value, bindings, log
      ensures Valid() && stack == old(stack)
      ensures match Write(old(value), selector, Values.Remove)
              case Ok(v) => out == Pass && value == v && Notified(old(StatesOf(bindings)), old(log.calls))
              case Err(e) =>
                out == Fail(e) && value == old(value) && log.calls == old(log.calls)
                && StatesOf(bindings) == old(StatesOf(bindings))
    {
      out := Apply(selector, Values.Remove);
    }

    /** `getImmutable`: the value under a selector. */
    method GetImmutable(selector: string) returns (v: Value)
      ensures v == Read(value, selector)
    {
      v := Read(value, selector);
    }

    /** `get`: the value under a selector, converted to plain data, which
        for this model is the same value. */
    method Get(selector: string) returns (v: Value)
      ensures v == Read(value, selector)
    {
      v := GetImmutable(selector);
    }

    /** `raised`: how many copies are saved. */
    method Raised() returns (n: nat)
      ensures n == |stack|
    {
      n := |stack|;
    }

    method SetDebug(on: bool)
      modifies this`debug
      ensures debug == on
    {
      debug := on;
    }
  }
}

=== FILE: text.dfy ===
/** Character-level helpers shared by the path resolver, the list-index rule of
    the value engine, the automatic store names and the namespace helper:
    JavaScript's `String.prototype.split` on one separator character, decimal
    digits, the decimal spelling of a natural number and the canonical array
    index test of the value library. */
module Text {
  import opened Wrappers

  /** `String.prototype.split(sep)` for a one-character separator: the pieces
      between separators, empty pieces included; never an empty list. */
  function Split(s: string, sep: char): (r: seq<string>)
    ensures |r| >= 1
    ensures forall i :: 0 <= i < |r| ==> sep !in r[i]
  {
    if s == [] then [[]]
    else
      var rest := Split(s[1..], sep);
      if s[0] == sep then [[]] + rest else [[s[0]] + rest[0]] + rest[1..]
  }

  /** `Array.prototype.join(sep)` for a non-empty list of pieces. */
  function Join(parts: seq<string>, sep: char): string
    requires |parts| >= 1
  {
    if |parts| == 1 then parts[0] else parts[0] + [sep] + Join(parts[1..], sep)
  }

  /** Joining the pieces of a split gives back the string. */
  lemma {:induction false} JoinSplit(s: string, sep: char)
    ensures Join(Split(s, sep), sep) == s
  {
    if s != [] {
      JoinSplit(s[1..], sep);
      var rest := Split(s[1..], sep);
      if s[0] != sep && |rest| > 1 {
        assert Join(rest, sep) == rest[0] + [sep] + Join(rest[1..], sep);
        assert ([s[0]] + rest[0]) + [sep] + Join(rest[1..], sep) == [s[0]] + Join(rest, sep);
      }
    }
  }

  /** Splitting a string that starts with a separator-free prefix glues that
      prefix to the first piece. */
  lemma {:induction false} SplitPrefix(p: string, t: string, sep: char)
    requires sep !in p
    ensures Split(p + t, sep) == [p + Split(t, sep)[0]] + Split(t, sep)[1..]
  {
    if p != [] {
      assert (p + t)[1..] == p[1..] + t;
      SplitPrefix(p[1..], t, sep);
      assert [p[0]] + (p[1..] + Split(t, sep)[0]) == p + Split(t, sep)[0];
    } else {
      var r := Split(t, sep);
      assert p + t == t && p + r[0] == r[0];
      assert [r[0]] + r[1..] == r;
    }
  }

  /** Splitting the join of separator-free pieces gives back the pieces. */
  lemma {:induction false} SplitJoin(parts: seq<string>, sep: char)
    requires |parts| >= 1
    requires forall i :: 0 <= i < |parts| ==> sep !in parts[i]
    ensures Split(Join(parts, sep), sep) == parts
  {
    if |parts| == 1 {
      SplitPrefix(parts[0], [], sep);
      assert parts[0] + [] == parts[0];
    } else {
      var tail := Join(parts[1..], sep);
      SplitJoin(parts[1..], sep);
      SplitSep(tail, sep);
      SplitPrefix(parts[0], [sep] + tail, sep);
      assert Join(parts, sep) == parts[0] + ([sep] + tail);
      assert parts[0] + [] == parts[0];
      assert [parts[0]] + parts[1..] == parts;
    }
  }

  /** A leading separator splits off an empty piece. */
  lemma SplitSep(t: string, sep: char)
    ensures Split([sep] + t, sep) == [[]] + Split(t, sep)
  {
    assert ([sep] + t)[1..] == t;
  }

  predicate IsDigit(c: char) {
    '0' <= c <= '9'
  }

  predicate AllDigits(s: string) {
    forall i :: 0 <= i < |s| ==> IsDigit(s[i])
  }

  function DigitChar(d: nat): (c: char)
    requires d < 10
    ensures IsDigit(c)
  {
    ('0' as int + d) as char
  }

  function DigitValue(c: char): (d: nat)
    requires IsDigit(c)
    ensures d < 10 && DigitChar(d) == c
  {
    c as int - '0' as int
  }

  /** The decimal spelling of `n`, as JavaScript's `"" + n` gives it for a
      natural number: digits only, no leading zero. */
  function DecimalString(n: nat): (s: string)
    ensures s != [] && AllDigits(s)
    ensures |s| > 1 ==> s[0] != '0'
  {
    if n < 10 then [DigitChar(n)] else DecimalString(n / 10) + [DigitChar(n % 10)]
  }

  /** The number a string of decimal digits denotes. */
  function NumberValue(s: string): nat
    requires AllDigits(s)
  {
    if s == [] then 0 else NumberValue(s[..|s| - 1]) * 10 + DigitValue(s[|s| - 1])
  }

  /** A canonical decimal: non-empty, digits only, no leading zero. */
  predicate Canonical(s: string) {
    s != [] && AllDigits(s) && (s[0] == '0' ==> |s| == 1)
  }

  /** The value library's rule for a string key on a list (its `wrapIndex`):
      the key is an index exactly when it is the canonical spelling of a number
      below 2^32 - 1. */
  const MaxIndex: nat := 0xFFFF_FFFF

  function ParseIndex(key: string): (r: Option<nat>)
    ensures r.Some? ==> r.value < MaxIndex && DecimalString(r.value) == key
  {
    if Canonical(key) && NumberValue(key) < MaxIndex then
      DecimalOfCanonical(key);
      Some(NumberValue(key))
    else None
  }

  /** Reading back the decimal spelling of `n` gives `n`. */
  lemma {:induction false} NumberValueOfDecimal(n: nat)
    ensures NumberValue(DecimalString(n)) == n
  {
    if n >= 10 {
      NumberValueOfDecimal(n / 10);
      var s := DecimalString(n);
      assert s[..|s| - 1] == DecimalString(n / 10);
    }
  }

  /** Every index below the bound is found again from its spelling. */
  lemma ParseIndexOfDecimal(n: nat)
    requires n < MaxIndex
    ensures ParseIndex(DecimalString(n)) == Some(n)
  {
    NumberValueOfDecimal(n);
  }

  /** Different numbers have different spellings. */
  lemma DecimalInjective(a: nat, b: nat)
    requires DecimalString(a) == DecimalString(b)
    ensures a == b
  {
    NumberValueOfDecimal(a);
    NumberValueOfDecimal(b);
  }

  lemma {:induction false} LeadingDigitPositive(s: string)
    requires s != [] && AllDigits(s) && s[0] != '0'
    ensures NumberValue(s) > 0
  {
    if |s| > 1 {
      LeadingDigitPositive(s[..|s| - 1]);
    }
  }

  /** A canonical decimal is the spelling of the number it denotes. */
  lemma {:induction false} DecimalOfCanonical(s: string)
    requires Canonical(s)
    ensures DecimalString(NumberValue(s)) == s
  {
    if |s| > 1 {
      var t := s[..|s| - 1];
      var d := DigitValue(s[|s| - 1]);
      assert Canonical(t);
      DecimalOfCanonical(t);
      LeadingDigitPositive(t);
      var n := NumberValue(s);
      assert n == NumberValue(t) * 10 + d;
      assert n / 10 == NumberValue(t) && n % 10 == d;
      assert s == t + [s[|s| - 1]];
    }
  }
}

=== FILE: token_store.dfy ===
/** The older, token-protected store: a named wrapper around a vault whose
    `set`, `get` and `remove` can each be guarded by a token, with a
    registry of named sub-stores reachable through `subStore(name)` and a
    `$name` property defined on the store itself. */
module TokenStores {
  import opened Wrappers
  import opened Text
  import Namespaces
  import opened Vaults

  /** A JavaScript symbol, compared by identity. */
  type Token = nat

  datatype Protect = Protect(write: Option<Token>, read: Option<Token>, delete: Option<Token>)

  datatype Options = Options(protect: Option<Protect>)

  datatype Failure =
    | AlreadyExists   // createSubStore on a registered name
    | WrongToken      // a guarded call without the right token
    | TypeError       // a failing namespace walk

  /** A guard refuses a call when it is set and the token given is not it. */
  predicate Denied(guard: Option<Token>, token: Option<Token>) {
    guard.Some? && token != guard
  }

  datatype Access = Write | Read | Delete

  /** The guard of one kind of access, if the store is protected at all. */
  function Guard(options: Options, access: Access): (g: Option<Token>)
    ensures options.protect.None? ==> g.None?
  {
    match options.protect
    case None => None
    case Some(p) =>
      match access
      case Write => p.write
      case Read => p.read
      case Delete => p.delete
  }

  function ToFailure(o: Outcome<Namespaces.Error>): (r: Outcome<Failure>)
    ensures r.Pass? <==> o.Pass?
  {
    if o.Pass? then Pass else Fail(TypeError)
  }

  class TokenStore {
    const name: string
    const options: Options
    const vault: Vault
    var subStores: map<string, TokenStore>
    /** The `$`-properties defined on this object, each with the registered
        name its getter looks up. */
    var accessors: map<string, string>

    ghost predicate Valid()
      reads this, vault, vault.Repr
    {
      vault.Valid()
      && (forall n :: n in subStores ==> "$" + n in accessors && accessors["$" + n] == n)
      && (forall p :: p in accessors ==> |p| >= 1 && p[0] == '$' && accessors[p] == p[1..] && p[1..] in subStores)
      && (forall n :: n in subStores && n != "" ==> subStores[n].name == n)
    }

    /** `new Store(name, options)`: an empty or missing name is replaced by
        the generated `uuid`, missing options by no protection, and the
        vault starts empty. */
    constructor (given: Option<string>, opts: Option<Options>, uuid: string)
      ensures Valid() && fresh(vault) && fresh(vault.Repr)
      ensures name == if given.Some? && given.value != "" then given.value else uuid
      ensures options == if opts.Some? then opts.value else Options(None)
      ensures subStores == map[] && accessors == map[]
      ensures forall key :: Namespaces.Lookup(vault.Repr, vault.store, Split(key, '.')) == None
    {
      name := if given.Some? && given.value != "" then given.value else uuid;
      options := if opts.Some? then opts.value else Options(None);
      vault := new Vault(None, {});
      subStores := map[];
      accessors := map[];
    }

    /** Assigning `name` is ignored: `name` is fixed at construction and
        nothing else changes. */
    method SetName(n: string)
      ensures subStores == old(subStores) && accessors == old(accessors)
    {
    }

    /** `createSubStore(name, options)`: refused for a registered name;
        otherwise a new store is registered under `name` and reachable as
        the `$name` property. */
    method CreateSubStore(sub: string, opts: Option<Options>, uuid: string) returns (r: Result<TokenStore, Failure>)
      requires Valid()
      modifies this
      ensures Valid()
      ensures sub in old(subStores) ==>
        r == Err(AlreadyExists) && subStores == old(subStores) && accessors == old(accessors)
      ensures sub !in old(subStores) ==>
        r.Ok? && fresh(r.value) && r.value.Valid()
        && subStores == old(subStores)[sub := r.value]
        && accessors == old(accessors)["$" + sub := sub]
        && r.value.name == (if sub != "" then sub else uuid)
        && Property("$" + sub) == Some(r.value)
    {
      if sub in subStores {
        return Err(AlreadyExists);
      }
      var created := new TokenStore(Some(sub), opts, uuid);
      subStores := subStores[sub := created];
      accessors := accessors["$" + sub := sub];
      r := Ok(created);
      assert ("$" + sub)[1..] == sub;
      forall p | p in accessors
        ensures |p| >= 1 && p[0] == '$' && accessors[p] == p[1..] && p[1..] in subStores
      {
        if p != "$" + sub {
          assert p in old(accessors);
        }
      }
    }

    /** `subStore(name)`: the store registered under the name; `None` for
        the `null` of an unknown name. A non-empty name is the sub-store's
        own name. */
    function SubStore(sub: string): (r: Option<TokenStore>)
      requires Valid()
      reads this, vault, vault.Repr
      ensures r.Some? <==> sub in subStores
      ensures r.Some? && sub != "" ==> r.value.name == sub
    {
      if sub in subStores then Some(subStores[sub]) else None
    }

    /** Reading the property `p` of the store object: a `$name` accessor
        gives the store registered under `name`; any other property is
        absent. */
    function Property(p: string): (r: Option<TokenStore>)
      requires Valid()
      reads this, vault, vault.Repr
      ensures r.Some? <==> |p| >= 1 && p[0] == '$' && p[1..] in subStores
      ensures r.Some? ==> r == SubStore(p[1..])
    {
      if p in accessors then SubStore(accessors[p])
      else
        assert |p| >= 1 && p[0] == '$' ==> p == "$" + p[1..] by {
          if |p| >= 1 && p[0] == '$' {
            assert p == [p[0]] + p[1..];
          }
        }
        None
    }

    /** `set(key, value, token)`: refused when writes are guarded by another
        token; otherwise the vault's `set`, with its frame. */
    method Set(key: string, value: Namespaces.Prop, token: Option<Token>, ghost extra: set<Namespaces.Record>)
        returns (out: Outcome<Failure>, ghost trail: seq<Namespaces.Record>)
      requires Valid() && Namespaces.Closed(extra) && Namespaces.Within(value, vault.Repr + extra)
      modifies vault, vault.Repr, extra
      ensures Valid()
      ensures Denied(Guard(options, Write), token) ==>
        out == Fail(WrongToken) && vault.Repr == old(vault.Repr) && unchanged(vault.Repr) && unchanged(extra)
      ensures !Denied(Guard(options, Write), token) && Namespaces.LastUnique(Split(key, '.')) ==>
        out == Pass && Namespaces.Lookup(vault.Repr, vault.store, Split(key, '.')) == Some(value)
      ensures !Denied(Guard(options, Write), token) ==>
        (out.Fail? ==> out.error == TypeError && !Namespaces.LastUnique(Split(key, '.')))
        && 1 <= |trail| <= |Split(key, '.')| && trail[0] == vault.store && Namespaces.Linked(trail, Split(key, '.'), 0, |trail| - 1)
        && (forall o :: o in old(vault.Repr) + extra && o !in trail ==> o.props == old(o.props))
        && (forall o :: o in old(vault.Repr) + extra ==>
              Namespaces.SetterFrame(o.props, old(o.props), Split(key, '.'), old(vault.Repr) + extra))
        && (forall o :: o in vault.Repr && o !in old(vault.Repr) + extra ==>
              Namespaces.SetterFrame(o.props, map[], Split(key, '.'), old(vault.Repr) + extra))
    {
      if Denied(Guard(options, Write), token) {
        return Fail(WrongToken), [];
      }
      var o;
      o, trail := vault.Set(key, value, extra);
      out := ToFailure(o);
    }

    /** `get(key, token)`: refused when reads are guarded by another token;
        otherwise the vault's `get`. */
    method Get(key: string, token: Option<Token>) returns (r: Result<Option<Namespaces.Prop>, Failure>)
      requires Valid()
      ensures Denied(Guard(options, Read), token) ==> r == Err(WrongToken)
      ensures !Denied(Guard(options, Read), token) ==>
        r == Ok(Namespaces.Lookup(vault.Repr, vault.store, Split(key, '.')))
    {
      if Denied(Guard(options, Read), token) {
        return Err(WrongToken);
      }
      var v := vault.Get(key);
      r := Ok(v);
    }

    /** `remove(key, token)`: refused when deletes are guarded by another
        token; otherwise the vault's `remove`, with its frame. */
    method Remove(key: string, token: Option<Token>) returns (out: Outcome<Failure>)
      requires Valid()
      modifies vault.Repr
      ensures Valid()
      ensures Denied(Guard(options, Delete), token) ==> out == Fail(WrongToken) && unchanged(vault.Repr)
      ensures !Denied(Guard(options, Delete), token) ==>
        Namespaces.Lookup(vault.Repr, vault.store, Split(key, '.')) == None
      ensures !Denied(Guard(options, Delete), token)
              && old(Namespaces.Locate(vault.Repr, Namespaces.Obj(vault.store), Split(key, '.'), 0)).None? ==>
        out == Pass && unchanged(vault.Repr)
      ensures !Denied(Guard(options, Delete), token)
              && old(Namespaces.Locate(vault.Repr, Namespaces.Obj(vault.store), Split(key, '.'), 0)).Some? ==>
        var parts := Split(key, '.');
        var holder := old(Namespaces.Locate(vault.Repr, Namespaces.Obj(vault.store), parts, 0)).value.0;
        var at := old(Namespaces.Locate(vault.Repr, Namespaces.Obj(vault.store), parts, 0)).value.1;
        holder.props == old(holder.props) - {parts[|parts| - 1]}
        && (forall o :: o in vault.Repr && o != holder ==> o.props == old(o.props))
        && out == (if at == |parts| - 1 then Pass else Fail(TypeError))
    {
      if Denied(Guard(options, Delete), token) {
        return Fail(WrongToken);
      }
      var o := vault.Remove(key);
      out := ToFailure(o);
    }
  }
}

=== FILE: values.dfy ===
/** The value layer of the store: the immutable data model and the deep
    operations on it (`getIn`, `setIn`, `mergeIn`, `removeIn` of the
    persistent-collection library the store is built on). A collection is
    modelled as a value, so structural equality is the library's `is`, and
    converting to and from plain objects is the identity. */
module Values {
  import opened Wrappers
  import opened Text
  import opened Paths

  /** A stored value: the primitives, a keyed map or an indexed list. */
  datatype Value =
    | Undefined
    | Null
    | Bool(b: bool)
    | Num(n: int)
    | Str(s: string)
    | Map(entries: map<string, Value>)
    | List(items: seq<Value>)

  /** What a key addresses: nothing at all (the library's `NOT_SET`
      sentinel), or a value, possibly `undefined`. */
  datatype Slot = NotSet | Present(v: Value)

  datatype Error =
    | TypeError         // an update through a primitive, or a merge that cannot be done
    | RootNotContainer  // a write at the empty selector that would leave no map or list at the root
    | PresetRejected    // a store preset that is neither a map nor a list

  /** The three updates the store performs at the end of a path. */
  datatype Edit = Assign(x: Value) | Remove | MergeWith(src: Value)

  predicate IsContainer(v: Value) {
    v.Map? || v.List?
  }

  /** The list of `n` holes that a write beyond the end of a list leaves. */
  function Holes(n: nat): (r: seq<Value>)
    ensures |r| == n && forall i :: 0 <= i < n ==> r[i] == Undefined
  {
    seq(n, _ => Undefined)
  }

  /** The slot `key` addresses in `v`. A list is addressed only by the
      canonical decimal form of an index below its length; a primitive has
      no children. */
  function ChildSlot(v: Value, key: string): Slot {
    match v
    case Map(m) => if key in m then Present(m[key]) else NotSet
    case List(xs) =>
      (match ParseIndex(key)
       case Some(i) => if i < |xs| then Present(xs[i]) else NotSet
       case None => NotSet)
    case _ => NotSet
  }

  /** The functional `set` on a container. Writing a list index at or beyond
      the end pads the list with holes; a list key that is not an index
      leaves the list as it is. */
  function Put(v: Value, key: string, c: Value): Value {
    match v
    case Map(m) => Map(m[key := c])
    case List(xs) =>
      (match ParseIndex(key)
       case Some(i) => if i < |xs| then List(xs[i := c]) else List(xs + Holes(i - |xs|) + [c])
       case None => v)
    case _ => v
  }

  /** The functional `remove` on a container. Removing a list element shifts
      the elements after it down by one. */
  function Delete(v: Value, key: string): Value {
    match v
    case Map(m) => Map(m - {key})
    case List(xs) =>
      (match ParseIndex(key)
       case Some(i) => if i < |xs| then List(xs[..i] + xs[i + 1..]) else v
       case None => v)
    case _ => v
  }

  /** The slot reached by following `path` from `s`. */
  function SlotIn(s: Slot, path: seq<string>): Slot
    decreases path
  {
    if path == [] then s
    else match s
      case NotSet => NotSet
      case Present(v) => SlotIn(ChildSlot(v, path[0]), path[1..])
  }

  /** What a read of `path` returns: `undefined` where nothing is set. */
  function ValueAt(s: Slot, path: seq<string>): Value {
    var t := SlotIn(s, path);
    if t.Present? then t.v else Undefined
  }

  /** `getIn`: the value at `path` below `v`. */
  function GetIn(v: Value, path: seq<string>): Value {
    ValueAt(Present(v), path)
  }

  /** `merge` of one source into an existing value. A map takes over the
      entries of a map source and ignores an empty source; a list appends
      the items of a list source, or any other source as one more item;
      everything else is a type error. */
  function Merge(base: Value, src: Value): (r: Result<Value, Error>)
    ensures r.Err? ==> r.error == TypeError
    ensures r.Ok? ==> base.Map? == r.value.Map? && base.List? == r.value.List?
    ensures r.Ok? <==> base.List? || (base.Map? && (src.Map? || src in {Undefined, Null, Str(""), List([])}))
  {
    match base
    case Map(a) =>
      (match src
       case Map(b) => Ok(Map(a + b))
       case Undefined => Ok(base)
       case Null => Ok(base)
       case Str(t) => if t == "" then Ok(base) else Err(TypeError)
       case List(ys) => if ys == [] then Ok(base) else Err(TypeError)
       case _ => Err(TypeError))
    case List(xs) =>
      (match src
       case List(ys) => Ok(List(xs + ys))
       case _ => Ok(List(xs + [src])))
    case _ => Err(TypeError)
  }

  /** The updater applied to the slot at the end of the path. A merge into
      an unset slot merges into an empty map; a merge that changes nothing
      keeps the slot exactly as it was, unset included. */
  function ApplyEdit(s: Slot, e: Edit): (r: Result<Slot, Error>)
    ensures r.Err? ==> e.MergeWith? && r.error == TypeError
  {
    match e
    case Assign(x) => Ok(Present(x))
    case Remove => Ok(NotSet)
    case MergeWith(src) =>
      var base := if s.NotSet? then Map(map[]) else s.v;
      match Merge(base, src)
      case Err(x) => Err(x)
      case Ok(m) => Ok(if m == base then s else Present(m))
  }

  /** `updateIn` over a slot: walk the path, creating maps where nothing is
      set, fail on a primitive that is in the way, apply the edit at the end
      and rebuild the containers on the way back. A container whose child
      comes back unchanged is kept unchanged; one whose child comes back
      unset loses that child. */
  function UpdateIn(s: Slot, path: seq<string>, e: Edit): (r: Result<Slot, Error>)
    ensures r.Err? ==> r.error == TypeError
    ensures r.Ok? && path != [] && s.Present? ==> r.value.Present? && IsContainer(r.value.v)
    ensures r.Ok? && path != [] && s.NotSet? && r.value.Present? ==> r.value.v.Map?
    decreases path
  {
    if path == [] then ApplyEdit(s, e)
    else match s
      case NotSet =>
        (match UpdateIn(NotSet, path[1..], e)
         case Err(x) => Err(x)
         case Ok(NotSet) => Ok(NotSet)
         case Ok(Present(u)) => Ok(Present(Put(Map(map[]), path[0], u))))
      case Present(v) =>
        if !IsContainer(v) then Err(TypeError)
        else
          var next := ChildSlot(v, path[0]);
          match UpdateIn(next, path[1..], e)
          case Err(x) => Err(x)
          case Ok(u) =>
            Ok(if u == next then s
               else if u.NotSet? then Present(Delete(v, path[0]))
               else Present(Put(v, path[0], u.v)))
  }

  /** A store write at `selector`. The root stays a map or a list: a write
      at the empty selector that would replace the root by anything else is
      refused. */
  function Write(root: Value, selector: string, e: Edit): (r: Result<Value, Error>)
    ensures r.Ok? ==> IsContainer(r.value)
  {
    match UpdateIn(Present(root), ParsePath(selector), e)
    case Err(x) => Err(x)
    case Ok(NotSet) => Err(RootNotContainer)
    case Ok(Present(v)) => if IsContainer(v) then Ok(v) else Err(RootNotContainer)
  }

  /** A store read at `selector`. */
  function Read(root: Value, selector: string): Value {
    GetIn(root, ParsePath(selector))
  }

  /** A store preset: none gives an empty map, a map or list is taken as it
      is, and anything else is rejected. */
  function Seed(preset: Value): (r: Result<Value, Error>)
    ensures r.Ok? <==> !(preset.Bool? || preset.Num? || preset.Str?)
    ensures r.Ok? ==> IsContainer(r.value) && (IsContainer(preset) ==> r.value == preset)
    ensures r.Ok? && !IsContainer(preset) ==> r.value == Map(map[])
    ensures r.Err? ==> r.error == PresetRejected
  {
    match preset
    case Undefined => Ok(Map(map[]))
    case Null => Ok(Map(map[]))
    case Map(_) => Ok(preset)
    case List(_) => Ok(preset)
    case _ => Err(PresetRejected)
  }

  /** Some container on the way to the end of `path` is a primitive. */
  predicate Blocked(s: Slot, path: seq<string>)
    decreases path
  {
    path != [] && s.Present? && (!IsContainer(s.v) || Blocked(ChildSlot(s.v, path[0]), path[1..]))
  }

  /** Every list met along `path` is addressed by an index. */
  predicate Addressable(s: Slot, path: seq<string>)
    decreases path
  {
    path == [] || s.NotSet? ||
      ((s.v.List? ==> ParseIndex(path[0]).Some?) && Addressable(ChildSlot(s.v, path[0]), path[1..]))
  }

  /** The last key of `path` is looked up in a list. */
  predicate ListHolder(s: Slot, path: seq<string>) {
    path != [] && SlotIn(s, path[..|path| - 1]).Present? && SlotIn(s, path[..|path| - 1]).v.List?
  }

  /** Two paths part ways: neither is a prefix of the other. */
  predicate Diverge(p: seq<string>, q: seq<string>)
    decreases p
  {
    p != [] && q != [] && (p[0] != q[0] || Diverge(p[1..], q[1..]))
  }

  // ---------------------------------------------------------------------
  // Properties of the deep update

  /** An update fails exactly when a primitive is in the way or the edit at
      the end fails. */
  lemma {:induction false} UpdateOkIff(s: Slot, path: seq<string>, e: Edit)
    ensures UpdateIn(s, path, e).Ok? <==> !Blocked(s, path) && ApplyEdit(SlotIn(s, path), e).Ok?
    decreases path
  {
    if path != [] {
      match s
      case NotSet =>
        UpdateOkIff(NotSet, path[1..], e);
        NotSetBelow(path[1..]);
      case Present(v) =>
        if IsContainer(v) {
          UpdateOkIff(ChildSlot(v, path[0]), path[1..], e);
        }
    }
  }

  /** Nothing is set below an unset slot, and nothing blocks there. */
  lemma {:induction false} NotSetBelow(path: seq<string>)
    ensures SlotIn(NotSet, path) == NotSet && !Blocked(NotSet, path)
  {
  }

  /** Writing a key of a container and reading it back gives what was
      written, unless a list is written at a key that is not an index. */
  lemma PutGet(v: Value, key: string, c: Value)
    requires IsContainer(v) && (v.List? ==> ParseIndex(key).Some?)
    ensures ChildSlot(Put(v, key, c), key) == Present(c)
  {
    if v.List? {
      var i := ParseIndex(key).value;
      var xs := v.items;
      if i >= |xs| {
        var ys := xs + Holes(i - |xs|) + [c];
        assert |ys| == i + 1 && ys[i] == c;
      }
    }
  }

  /** Writing one key of a container leaves every other key as it was, but
      for the holes a write beyond the end of a list creates. */
  lemma PutOther(v: Value, key: string, other: string, c: Value)
    requires IsContainer(v) && key != other
    ensures ChildSlot(Put(v, key, c), other) == ChildSlot(v, other)
         || (ChildSlot(v, other) == NotSet && ChildSlot(Put(v, key, c), other) == Present(Undefined))
  {
    if v.List? && ParseIndex(key).Some? && ParseIndex(other).Some? {
      var i := ParseIndex(key).value;
      var j := ParseIndex(other).value;
      assert i != j;
      var xs := v.items;
      if i >= |xs| {
        var ys := xs + Holes(i - |xs|) + [c];
        if j < |ys| {
          assert j < |xs| ==> ys[j] == xs[j];
          assert |xs| <= j < i ==> ys[j] == Undefined;
        }
      }
    }
  }

  /** Removing a key of a map leaves every other key as it was. */
  lemma DeleteOther(m: map<string, Value>, key: string, other: string)
    requires key != other
    ensures ChildSlot(Delete(Map(m), key), other) == ChildSlot(Map(m), other)
  {
  }

  /** A hole reads as `undefined` at every path below it. */
  lemma {:induction false} HoleReadsUndefined(path: seq<string>)
    ensures ValueAt(Present(Undefined), path) == Undefined
    ensures ValueAt(NotSet, path) == Undefined
  {
    NotSetBelow(path);
    if path != [] {
      NotSetBelow(path[1..]);
    }
  }

  /** An update along `p + q` does, at `p`, what the update along `q` does to
      the slot found at `p`, provided every list on `p` is addressed by an
      index and the update is not the removal of a list element at `p`
      itself. */
  lemma {:induction false} UpdateSub(s: Slot, p: seq<string>, q: seq<string>, e: Edit)
    requires UpdateIn(s, p + q, e).Ok?
    requires Addressable(s, p)
    requires q == [] && e.Remove? ==> !ListHolder(s, p)
    ensures UpdateIn(SlotIn(s, p), q, e).Ok?
    ensures SlotIn(UpdateIn(s, p + q, e).value, p) == UpdateIn(SlotIn(s, p), q, e).value
    decreases p, 1
  {
    if p == [] {
      assert p + q == q;
    } else if s.NotSet? {
      UpdateSubUnset(p, q, e);
    } else {
      UpdateSubPresent(s.v, p, q, e);
    }
  }

  /** How `p + q` and the parent path of `p` split at the first key. */
  lemma PathSlices(p: seq<string>, q: seq<string>)
    requires p != []
    ensures (p + q)[0] == p[0] && (p + q)[1..] == p[1..] + q
    ensures |p| > 1 ==> p[..|p| - 1][0] == p[0] && p[..|p| - 1][1..] == p[1..][..|p| - 2]
  {
  }

  /** The case of `UpdateSub` for an unset slot. */
  lemma {:induction false} UpdateSubUnset(p: seq<string>, q: seq<string>, e: Edit)
    requires p != [] && UpdateIn(NotSet, p + q, e).Ok?
    ensures UpdateIn(SlotIn(NotSet, p), q, e).Ok?
    ensures SlotIn(UpdateIn(NotSet, p + q, e).value, p) == UpdateIn(SlotIn(NotSet, p), q, e).value
    decreases p, 0
  {
    PathSlices(p, q);
    UpdateSub(NotSet, p[1..], q, e);
    NotSetBelow(p);
    NotSetBelow(p[1..]);
  }

  /** The case of `UpdateSub` for a present slot. */
  lemma {:induction false} UpdateSubPresent(v: Value, p: seq<string>, q: seq<string>, e: Edit)
    requires p != [] && UpdateIn(Present(v), p + q, e).Ok?
    requires Addressable(Present(v), p)
    requires q == [] && e.Remove? ==> !ListHolder(Present(v), p)
    ensures UpdateIn(SlotIn(Present(v), p), q, e).Ok?
    ensures SlotIn(UpdateIn(Present(v), p + q, e).value, p) == UpdateIn(SlotIn(Present(v), p), q, e).value
    decreases p, 0
  {
    var k, p' := p[0], p[1..];
    PathSlices(p, q);
    var next := ChildSlot(v, k);
    UpdateSub(next, p', q, e);
    var u := UpdateIn(next, p' + q, e).value;
    if u != next && u.NotSet? {
      assert p' + q == [];
      assert p' == [] && q == [];
      assert p[..|p| - 1] == [];
      assert v.Map?;
    } else if u != next {
      PutGet(v, k, u.v);
    }
  }

  /** After an update, the slot at the end of the path is what the edit
      makes of the slot that was there. */
  lemma UpdateLeaf(s: Slot, path: seq<string>, e: Edit)
    requires UpdateIn(s, path, e).Ok?
    requires Addressable(s, path)
    requires e.Remove? ==> !ListHolder(s, path)
    ensures ApplyEdit(SlotIn(s, path), e).Ok?
    ensures SlotIn(UpdateIn(s, path, e).value, path) == ApplyEdit(SlotIn(s, path), e).value
  {
    assert path + [] == path;
    UpdateSub(s, path, [], e);
  }

  /** An update changes nothing a diverging path reads, provided it is not
      the removal of a list element (which shifts the elements after it). */
  lemma {:induction false} UpdateElsewhere(s: Slot, p: seq<string>, q: seq<string>, e: Edit)
    requires UpdateIn(s, p, e).Ok?
    requires Diverge(p, q)
    requires e.Remove? ==> !ListHolder(s, p)
    ensures ValueAt(UpdateIn(s, p, e).value, q) == ValueAt(s, q)
    decreases p
  {
    var k, p' := p[0], p[1..];
    var r := UpdateIn(s, p, e).value;
    if p' != [] {
      assert p[..|p| - 1] == [k] + p'[..|p'| - 1];
      assert p[..|p| - 1][1..] == p'[..|p'| - 1];
    }
    match s
    case NotSet =>
      HoleReadsUndefined(q);
      if r.Present? {
        var u := UpdateIn(NotSet, p', e).value;
        if q[0] == k {
          UpdateElsewhere(NotSet, p', q[1..], e);
        } else {
          NotSetBelow(q[1..]);
        }
      }
    case Present(v) =>
      var next := ChildSlot(v, k);
      var u := UpdateIn(next, p', e).value;
      if u != next {
        if q[0] == k {
          if u.NotSet? {
            assert false;
          } else {
            if v.List? && ParseIndex(k).None? {
            } else {
              PutGet(v, k, u.v);
              UpdateElsewhere(next, p', q[1..], e);
            }
          }
        } else if u.NotSet? {
          assert p' == [] && p[..|p| - 1] == [];
          DeleteOther(v.entries, k, q[0]);
        } else {
          PutOther(v, k, q[0], u.v);
          HoleReadsUndefined(q[1..]);
        }
      }
  }

  // ---------------------------------------------------------------------
  // Properties of store writes and reads

  /** A write fails exactly when a primitive is in the way, the merge at
      the end fails, or the root would stop being a map or a list. For
      `set` and `remove` only the first can happen below the root. */
  lemma WriteOkIff(root: Value, selector: string, e: Edit)
    requires IsContainer(root) && ParsePath(selector) != []
    ensures Write(root, selector, e).Ok?
        <==> !Blocked(Present(root), ParsePath(selector)) && ApplyEdit(SlotIn(Present(root), ParsePath(selector)), e).Ok?
    ensures !e.MergeWith? ==> (Write(root, selector, e).Ok? <==> !Blocked(Present(root), ParsePath(selector)))
  {
    UpdateOkIff(Present(root), ParsePath(selector), e);
  }

  /** `set` then `get` at the same selector gives the value set. */
  lemma SetThenGet(root: Value, selector: string, x: Value)
    requires Write(root, selector, Assign(x)).Ok?
    requires Addressable(Present(root), ParsePath(selector))
    ensures Read(Write(root, selector, Assign(x)).value, selector) == x
  {
    UpdateLeaf(Present(root), ParsePath(selector), Assign(x));
  }

  /** `remove` then `get` at the same selector gives `undefined`, when the
      removed key belongs to a map. */
  lemma RemoveThenGet(root: Value, selector: string)
    requires Write(root, selector, Remove).Ok?
    requires Addressable(Present(root), ParsePath(selector))
    requires !ListHolder(Present(root), ParsePath(selector))
    ensures Read(Write(root, selector, Remove).value, selector) == Undefined
  {
    UpdateLeaf(Present(root), ParsePath(selector), Remove);
  }

  /** A write that succeeds stores what the deep update computes. */
  lemma WriteStores(root: Value, selector: string, e: Edit)
    requires Write(root, selector, e).Ok?
    ensures UpdateIn(Present(root), ParsePath(selector), e) == Ok(Present(Write(root, selector, e).value))
  {
  }

  /** `remove` of a list element leaves the list without it: the elements
      after it move down by one. */
  lemma RemoveListElement(root: Value, parent: seq<string>, xs: seq<Value>, i: nat)
    requires SlotIn(Present(root), parent) == Present(List(xs)) && i < |xs| && i < MaxIndex
    requires Addressable(Present(root), parent)
    requires UpdateIn(Present(root), parent + [DecimalString(i)], Remove).Ok?
    ensures GetIn(UpdateIn(Present(root), parent + [DecimalString(i)], Remove).value.v, parent)
         == List(xs[..i] + xs[i + 1..])
  {
    var k := DecimalString(i);
    RemoveOneElement(xs, i);
    UpdateSub(Present(root), parent, [k], Remove);
    var r := UpdateIn(Present(root), parent + [k], Remove).value;
    assert r == Present(r.v);
    assert SlotIn(r, parent) == Present(List(xs[..i] + xs[i + 1..]));
  }

  lemma RemoveOneElement(xs: seq<Value>, i: nat)
    requires i < |xs| && i < MaxIndex
    ensures UpdateIn(Present(List(xs)), [DecimalString(i)], Remove) == Ok(Present(List(xs[..i] + xs[i + 1..])))
  {
    var k := DecimalString(i);
    ParseIndexOfDecimal(i);
    assert [k][1..] == [];
    assert ChildSlot(List(xs), k) == Present(xs[i]);
    assert Delete(List(xs), k) == List(xs[..i] + xs[i + 1..]);
  }

  /** `merge` of a map into a map at a selector leaves the union there, the
      merged entries winning; into an unset slot it leaves the source, or
      nothing if the source is empty. */
  lemma MergeThenGet(root: Value, selector: string, b: map<string, Value>)
    requires Write(root, selector, MergeWith(Map(b))).Ok?
    requires Addressable(Present(root), ParsePath(selector))
    ensures var before := SlotIn(Present(root), ParsePath(selector));
            var after := Read(Write(root, selector, MergeWith(Map(b))).value, selector);
            (before == NotSet ==> after == if b == map[] then Undefined else Map(b))
            && (before.Present? && before.v.Map? ==> after == Map(before.v.entries + b))
  {
    var path := ParsePath(selector);
    var e := MergeWith(Map(b));
    WriteStores(root, selector, e);
    UpdateLeaf(Present(root), path, e);
    MergeLeaf(SlotIn(Present(root), path), b);
  }

  /** What merging a map does to one slot: an unset slot takes the source,
      or stays unset if the source is empty; a map takes the union. */
  lemma MergeLeaf(before: Slot, b: map<string, Value>)
    ensures before == NotSet ==>
      ApplyEdit(before, MergeWith(Map(b))) == Ok(if b == map[] then NotSet else Present(Map(b)))
    ensures before.Present? && before.v.Map? ==>
      ApplyEdit(before, MergeWith(Map(b))) == Ok(Present(Map(before.v.entries + b)))
  {
    if before == NotSet {
      assert map[] + b == b;
      assert Merge(Map(map[]), Map(b)) == Ok(Map(b));
    } else if before.v.Map? {
      assert Merge(before.v, Map(b)) == Ok(Map(before.v.entries + b));
    }
  }

  /** `merge` into a list at a selector appends: the items of a list
      source, or the source itself as one item. */
  lemma MergeIntoList(root: Value, selector: string, xs: seq<Value>, src: Value)
    requires SlotIn(Present(root), ParsePath(selector)) == Present(List(xs))
    requires Write(root, selector, MergeWith(src)).Ok?
    requires Addressable(Present(root), ParsePath(selector))
    ensures Read(Write(root, selector, MergeWith(src)).value, selector)
         == List(xs + if src.List? then src.items else [src])
  {
    UpdateLeaf(Present(root), ParsePath(selector), MergeWith(src));
  }

  /** A write leaves every selector that parts ways with it reading what it
      read before, unless it removes a list element. */
  lemma WriteElsewhere(root: Value, selector: string, other: string, e: Edit)
    requires Write(root, selector, e).Ok?
    requires Diverge(ParsePath(selector), ParsePath(other))
    requires e.Remove? ==> !ListHolder(Present(root), ParsePath(selector))
    ensures Read(Write(root, selector, e).value, other) == Read(root, other)
  {
    UpdateElsewhere(Present(root), ParsePath(selector), ParsePath(other), e);
  }

  /** A write at the empty selector replaces the whole root, and is refused
      when the new root would not be a map or a list. */
  lemma WriteRoot(root: Value, e: Edit)
    ensures Write(root, "", e).Ok?
        <==> (ApplyEdit(Present(root), e).Ok? && ApplyEdit(Present(root), e).value.Present?
              && IsContainer(ApplyEdit(Present(root), e).value.v))
    ensures Write(root, "", e).Ok? ==> Write(root, "", e).value == ApplyEdit(Present(root), e).value.v
    ensures Write(root, "", Remove).Err?
    ensures forall v :: IsContainer(v) ==> Write(root, "", Assign(v)) == Ok(v)
  {
    ParsePathEmpty();
  }
}

=== FILE: vault.dfy ===
/** The vault: a closure over one plain object, the preset when one is
    given (shared, not copied) and a new empty object otherwise, offering
    `set`, `get` and `remove` by dotted key through the namespace helper. */
module Vaults {
  import opened Wrappers
  import opened Text
  import opened Namespaces

  class Vault {
    const store: Record
    /** Every object reachable from `store`. */
    ghost var Repr: set<Record>

    ghost predicate Valid()
      reads this, Repr
    {
      store in Repr && Closed(Repr)
    }

    /** `vault(preset)`: the preset object itself, whose reachable objects
        are `shared`, or a new empty object. A vault without a preset reads
        `undefined` under every key. */
    constructor (preset: Option<Record>, ghost shared: set<Record>)
      requires preset.Some? ==> preset.value in shared && Closed(shared)
      ensures Valid()
      ensures preset.Some? ==> store == preset.value && Repr == shared
      ensures preset.None? ==> fresh(store) && Repr == {store} && store.props == map[]
      ensures preset.None? ==> forall key :: Lookup(Repr, store, Split(key, '.')) == None
    {
      if preset.Some? {
        store := preset.value;
        Repr := shared;
      } else {
        var empty := new Record();
        store := empty;
        Repr := {empty};
      }
    }

    /** `set(key, value)`: the objects reachable from an object value join
        the footprint. A key whose last segment occurs only once reads back
        the value; a type error of the namespace walk propagates. The
        objects the walk passed through are `trail`, linked by the key's
        segments from `store`; every other object keeps its properties, and
        those on the trail change only as the setter's frame allows: only
        properties named in the key change, and objects on the way are
        kept, not replaced. */
    method Set(key: string, value: Prop, ghost extra: set<Record>)
        returns (out: Outcome<Namespaces.Error>, ghost trail: seq<Record>)
      requires Valid() && Closed(extra) && Within(value, Repr + extra)
      modifies this`Repr, Repr, extra
      ensures Valid() && old(Repr) + extra <= Repr && fresh(Repr - old(Repr) - extra)
      ensures out.Fail? ==> !LastUnique(Split(key, '.'))
      ensures LastUnique(Split(key, '.')) ==> Lookup(Repr, store, Split(key, '.')) == Some(value)
      ensures 1 <= |trail| <= |Split(key, '.')| && trail[0] == store && Linked(trail, Split(key, '.'), 0, |trail| - 1)
      ensures forall o :: o in old(Repr) + extra && o !in trail ==> o.props == old(o.props)
      ensures forall o :: o in old(Repr) + extra ==>
                SetterFrame(o.props, old(o.props), Split(key, '.'), old(Repr) + extra)
      ensures forall o :: o in Repr && o !in old(Repr) + extra ==>
                SetterFrame(o.props, map[], Split(key, '.'), old(Repr) + extra)
    {
      var r;
      r, Repr, trail := Namespace(Some(store), key, Setter(value), Repr + extra);
      out := if r.Ok? then Pass else Fail(r.error);
    }

    /** `get(key)`: the value under the key, `None` for `undefined`. */
    method Get(key: string) returns (v: Option<Prop>)
      requires Valid()
      ensures v == Lookup(Repr, store, Split(key, '.'))
    {
      var r, _, _ := Namespace(Some(store), key, Getter, Repr);
      v := r.value;
    }

    /** `remove(key)`: the three-argument call of the namespace helper, so
        the key reads `undefined` afterwards. A missing key changes nothing;
        otherwise only the object holding the last segment loses it, and a
        deletion before the end of the key is a type error. */
    method Remove(key: string) returns (out: Outcome<Namespaces.Error>)
      requires Valid()
      modifies Repr
      ensures Valid() && Repr == old(Repr)
      ensures out.Fail? ==> !LastUnique(Split(key, '.'))
      ensures Lookup(Repr, store, Split(key, '.')) == None
      ensures old(Locate(Repr, Obj(store), Split(key, '.'), 0)).None? ==> out == Pass && unchanged(Repr)
      ensures old(Locate(Repr, Obj(store), Split(key, '.'), 0)).Some? ==>
        var parts := Split(key, '.');
        var holder := old(Locate(Repr, Obj(store), parts, 0)).value.0;
        var at := old(Locate(Repr, Obj(store), parts, 0)).value.1;
        holder.props == old(holder.props) - {parts[|parts| - 1]}
        && (forall o :: o in Repr && o != holder ==> o.props == old(o.props))
        && out == (if at == |parts| - 1 then Pass else Fail(TypeError))
    {
      var r, _, _ := Namespace(Some(store), key, Remover, Repr);
      out := if r.Ok? then Pass else Fail(r.error);
    }
  }
}

=== FILE: watches.dfy ===
/** What a binding does, as a value: it watches a list of selectors,
    remembers the value each had when its handler last ran, and runs its
    handler, with the current values of all its selectors, at most once per
    notification and only when one of them changed (or when forced). */
module Watches {
  import opened Values
  import opened Paths

  /** One run of a handler: which binding ran and with what results. */
  datatype Call = Call(binding: nat, results: seq<Value>)

  /** The state of a binding: its id, its selectors, whether it is paused,
      and the remembered values keyed by selector. */
  datatype Watch = Watch(id: nat, selectors: seq<string>, paused: bool, cache: map<string, Value>)

  /** The results handed to a handler: the value of each selector, in order. */
  function Current(selectors: seq<string>, root: Value): (r: seq<Value>)
    ensures |r| == |selectors|
    ensures forall i :: 0 <= i < |selectors| ==> r[i] == Read(root, selectors[i])
  {
    seq(|selectors|, i requires 0 <= i < |selectors| => Read(root, selectors[i]))
  }

  /** The remembered values after gathering: each selector's current value. */
  function Baseline(selectors: seq<string>, root: Value): (m: map<string, Value>)
    ensures m.Keys == set s | s in selectors
    ensures forall s :: s in m ==> m[s] == Read(root, s)
  {
    map s | s in selectors :: Read(root, s)
  }

  /** The remembered value of a selector; `undefined` if there is none. */
  function Cached(cache: map<string, Value>, selector: string): Value {
    if selector in cache then cache[selector] else Undefined
  }

  /** Some selector's value differs from the one remembered for it. */
  predicate Differs(w: Watch, root: Value) {
    exists i :: 0 <= i < |w.selectors| && Cached(w.cache, w.selectors[i]) != Read(root, w.selectors[i])
  }

  /** A binding just made: not paused, remembering the current values. */
  function NewWatch(id: nat, selectors: seq<string>, root: Value): (w: Watch)
    ensures !w.paused && w.id == id && w.selectors == selectors
    ensures !Differs(w, root)
  {
    Watch(id, selectors, false, Baseline(selectors, root))
  }

  /** `fire`: a paused binding does nothing. Otherwise, if it is forced or
      some selector changed, it gathers the current values and runs its
      handler once with them. A binding without selectors never runs its
      handler, forced or not. */
  function Fire(w: Watch, root: Value, force: bool): (r: (Watch, seq<Call>))
    ensures |r.1| <= 1
    ensures r.0.id == w.id && r.0.selectors == w.selectors && r.0.paused == w.paused
  {
    if w.paused then (w, [])
    else if |w.selectors| > 0 && (force || Differs(w, root)) then
      (w.(cache := w.cache + Baseline(w.selectors, root)), [Call(w.id, Current(w.selectors, root))])
    else (w, [])
  }

  /** When a fire runs the handler: exactly when the binding is not paused,
      has a selector, and is forced or sees a change; then it runs it with
      the current values and remembers them, and otherwise it changes
      nothing. */
  lemma FireRunsIff(w: Watch, root: Value, force: bool)
    ensures var r := Fire(w, root, force);
            (r.1 != [] <==> !w.paused && |w.selectors| > 0 && (force || Differs(w, root)))
            && (r.1 != [] ==> r.1 == [Call(w.id, Current(w.selectors, root))]
                              && r.0 == w.(cache := w.cache + Baseline(w.selectors, root)))
            && (r.1 == [] ==> r.0 == w)
  {
  }

  /** The handler runs of a store's notification: each binding fires,
      unforced, against the same data, in order. */
  function Notices(ws: seq<Watch>, root: Value): (calls: seq<Call>)
    ensures |calls| <= |ws|
    decreases |ws|
  {
    if ws == [] then []
    else Notices(ws[..|ws| - 1], root) + Fire(ws[|ws| - 1], root, false).1
  }

  // ---------------------------------------------------------------------

  /** After a fire, the binding remembers the current value of every
      selector when it is not paused. */
  lemma FireRemembers(w: Watch, root: Value, force: bool)
    requires !w.paused
    ensures !Differs(Fire(w, root, force).0, root)
  {
    var w' := Fire(w, root, force).0;
    if Fire(w, root, force).1 != [] {
      forall i | 0 <= i < |w'.selectors|
        ensures Cached(w'.cache, w'.selectors[i]) == Read(root, w'.selectors[i])
      {
        var s := w.selectors[i];
        assert s in Baseline(w.selectors, root);
      }
    }
  }

  /** Firing is idempotent: once a binding has fired against some data, an
      unforced fire against the same data does not run its handler again. */
  lemma FireSettles(w: Watch, root: Value, force: bool)
    ensures Fire(Fire(w, root, force).0, root, false).1 == []
  {
    if !w.paused {
      FireRemembers(w, root, force);
    }
  }

  /** A fresh binding runs its handler on an initial forced fire exactly
      when it has at least one selector, and never on an unforced one. */
  lemma InitialFire(id: nat, selectors: seq<string>, root: Value)
    ensures Fire(NewWatch(id, selectors, root), root, true).1 != [] <==> |selectors| > 0
    ensures Fire(NewWatch(id, selectors, root), root, false).1 == []
  {
  }

  /** Fire the same binding against a series of data, unforced. */
  function FireEach(w: Watch, roots: seq<Value>): (Watch, seq<Call>)
    decreases |roots|
  {
    if roots == [] then (w, [])
    else
      var first := Fire(w, roots[0], false);
      var rest := FireEach(first.0, roots[1..]);
      (rest.0, first.1 + rest.1)
  }

  /** A paused binding misses every change: firing it changes nothing and
      runs no handler. */
  lemma {:induction false} PausedMisses(w: Watch, roots: seq<Value>)
    requires w.paused
    ensures FireEach(w, roots) == (w, [])
    decreases |roots|
  {
    if roots != [] {
      var first := Fire(w, roots[0], false);
      assert first == (w, []);
      PausedMisses(w, roots[1..]);
      var rest := FireEach(first.0, roots[1..]);
      assert first.1 + rest.1 == [];
    }
  }

  /** A paused binding misses every change; when it is resumed it runs its
      handler once, with the latest values, exactly when they differ from the
      values it saw last, however many changes happened in between. */
  lemma PausedCatchUp(w: Watch, roots: seq<Value>, latest: Value)
    requires w.paused
    ensures FireEach(w, roots) == (w, [])
    ensures var resumed := Fire(w.(paused := false), latest, false).1;
            (resumed != [] <==> |w.selectors| > 0 && Differs(w, latest))
            && (resumed != [] ==> resumed == [Call(w.id, Current(w.selectors, latest))])
  {
    PausedMisses(w, roots);
    var u := w.(paused := false);
    FireRunsIff(u, latest, false);
    assert Differs(u, latest) == Differs(w, latest);
  }

  /** A write that parts ways with every selector of a binding does not run
      its handler: the binding's values are unchanged. */
  lemma UnrelatedWriteIsSilent(w: Watch, root: Value, selector: string, e: Edit)
    requires !Differs(w, root)
    requires Write(root, selector, e).Ok?
    requires forall s :: s in w.selectors ==> Diverge(ParsePath(selector), ParsePath(s))
    requires e.Remove? ==> !ListHolder(Present(root), ParsePath(selector))
    ensures Fire(w, Write(root, selector, e).value, false).1 == []
  {
    var root' := Write(root, selector, e).value;
    forall i | 0 <= i < |w.selectors|
      ensures Cached(w.cache, w.selectors[i]) == Read(root', w.selectors[i])
    {
      assert w.selectors[i] in w.selectors;
      WriteElsewhere(root, selector, w.selectors[i], e);
    }
  }
}

=== FILE: wrappers.dfy ===
/** Option, Result and Outcome: the values the model uses for JavaScript's
    `undefined`/`null` results and for thrown errors. */
module Wrappers {

  datatype Option<+T> = None | Some(value: T)

  datatype Result<+T, +E> = Ok(value: T) | Err(error: E)

  /** The outcome of an operation that returns nothing but may throw. */
  datatype Outcome<+E> = Pass | Fail(error: E)
}
